=== FILE: README.md ===
# investing-algorithm-framework: order queries, facade and configuration in Dafny

This project models the pure logic at the centre of the investing-algorithm-framework Python library:

- **Order repository query.** The SQL order repository turns a dictionary of query parameters into a filtered order list, sorted newest first.
- **Algorithm facade.** The `Algorithm` object that trading strategies call:
  - the order-spec builders;
  - the order and position queries, scoped to a portfolio;
  - the allocated value of portfolios and the percentage of a position within it.
- **Configuration values.**
  - the `Environment` enumeration, with its case-insensitive parsing;
  - the domain `Config` dictionary and its `TestConfig` and `DevConfig` subclasses: construction from the class dictionary, `get`, `set`, `from_dict`;
  - the older `configuration.settings.Config`, whose item lookups read through attributes.
- **Market credential lookup** of the market service.

The database, the exchange and the operating system are abstracted:

- The stored portfolios, positions and orders are sequences inside one immutable `AppState`.
- The exchange ticker is an uninterpreted function `bid(pair)`.
- The values read from `os.path` and `os.getenv` are fields of a `Host` record.
- Python exceptions are `Failure` values of a `Result`. `ApiException`, `OperationalException`, `KeyError`, `IndexError`, `ZeroDivisionError` and `TypeError` each keep their message where the source gives one.

Modules, one per component:

| module | file | models |
|---|---|---|
| `Wrappers` | wrappers.dfy | `Option` and `Result` with `:-` propagation |
| `Text` | text.dfy | ASCII `str.upper`/`str.lower` and `str.isupper` |
| `PyValues` | values.dfy | the Python values a configuration holds |
| `Environments` | environment.dfy | `Environment.from_string` and `equals`. The two source copies are identical, so one model covers both. |
| `DomainConfig` | domain_config.dfy | the domain `Config` dictionary |
| `LegacySettings` | legacy_settings.dfy | the settings `Config`: attribute-backed items |
| `MarketCredentials` | market_credentials.dfy | `market_credentials` and `get_market_credential` |
| `Domain` | domain.dfy | orders, positions, portfolios, configurations and their enums |
| `OrderRepository` | order_repository.dfy | `SQLOrderRepository._apply_query_params` and the newest-first ordering |
| `Services` | services.dfy | the state and the service lookups the facade relies on |
| `Valuation` | valuation.dfy | `get_allocated`, as written and corrected |
| `Algorithm` | algorithm.dfy | the rest of the facade |

Source paths below are relative to the repository root.

## Model

| member | source | states |
|---|---|---|
| Environments.FromString | investing_algorithm_framework/domain/config.py:21-38 | A string parses to member `e` exactly when its upper-case form equals `e.value`. A string matching no member fails with the "Could not convert value" `OperationalException`. A non-string fails with the "non string" one. |
| Environments.FromStringRoundTrip | investing_algorithm_framework/domain/config.py:15-29 | Every member's value parses back to that member, and so does its lower-case spelling. |
| Environments.FromStringCaseInsensitive | investing_algorithm_framework/configuration/settings.py:22-38 | Two strings with the same upper-case form parse to the same result, success or error. |
| Environments.Equals | investing_algorithm_framework/domain/config.py:40-52 | Against an enum member, `equals` compares values. Against a string, it is true exactly when the string's upper-case form is this member's value. Any other value is unequal. |
| Environments.EqualsOwnValue | investing_algorithm_framework/configuration/settings.py:40-52 | A member equals another member's value string, or that member itself, exactly when the two members are the same. |
| DomainConfig.NewConfig | investing_algorithm_framework/domain/config.py:80-86 | A fresh configuration's items are exactly its class dictionary's entries, so the `resource_directory` argument never reaches them. Every item holds its class-dictionary value, and the `ENVIRONMENT` item is the class's environment. A `Config()` holds the environment's `RESOURCE_DIRECTORY` and `LOG_LEVEL` "DEBUG". A subclass instance has `LOG_LEVEL` "INFO" and no `RESOURCE_DIRECTORY` item at all. |
| DomainConfig.NewConfigEnvironment | investing_algorithm_framework/domain/config.py:56 | A fresh configuration's `ENVIRONMENT` item parses back to its class's environment: PROD for `Config`, TEST for `TestConfig`, DEV for `DevConfig`. |
| DomainConfig.OnlyTestConfigIsTesting | investing_algorithm_framework/domain/config.py:178-188 | Only a `TestConfig()` has a `TESTING` item. Every subclass instance has its own `DATABASE_CONFIG` and none of the methods. |
| DomainConfig.Get | investing_algorithm_framework/domain/config.py:149-160 | `get` returns the stored item when the key is present and the default otherwise. |
| DomainConfig.Set | investing_algorithm_framework/domain/config.py:162-163 | `set` adds the key with the new value and leaves every other key's value as it was. |
| DomainConfig.SetThenGet | investing_algorithm_framework/domain/config.py:149-163 | After `set(k, v)`, `get(k)` is `v` whatever the default, and `get` of any other key is unchanged. |
| DomainConfig.FromDict | investing_algorithm_framework/domain/config.py:166-175 | The result's keys are the keys of `vars(Config)` plus every non-empty key of the dictionary. Non-empty keys carry the dictionary's value. Every other key keeps its class-dictionary value. |
| DomainConfig.CopyItems | investing_algorithm_framework/domain/config.py:169-173 | The copy loop stores exactly the non-empty keys of the dictionary over the starting items. It keeps the starting value of every key it does not copy. |
| DomainConfig.ConstantSettings | investing_algorithm_framework/domain/config.py:56-77 | The constant settings of `Config` include `LOG_LEVEL` "DEBUG" and `SQLITE_ENABLED` true. They include neither `TESTING` nor `RESOURCE_DIRECTORY`. |
| DomainConfig.HostSettings | investing_algorithm_framework/domain/config.py:58-72 | Exactly `APP_DIR`, `PROJECT_ROOT` and `RESOURCE_DIRECTORY` are read from the host. `RESOURCE_DIRECTORY` is the `os.getenv` result. |
| DomainConfig.DeclaredSettings | investing_algorithm_framework/domain/config.py:56-78 | The settings the `Config` body declares include `RESOURCE_DIRECTORY` read from the environment, `LOG_LEVEL` "DEBUG" and `SQLITE_ENABLED` true. They include no `TESTING`. |
| DomainConfig.BaseClassVars | investing_algorithm_framework/domain/config.py:55-86 | `vars(Config)`, apart from dunder entries, holds exactly the declared settings, with their values, and the methods `get`, `set` and `from_dict`. |
| DomainConfig.TestClassVars | investing_algorithm_framework/domain/config.py:178-182 | `vars(TestConfig)` holds exactly the four attributes `TestConfig` declares: `ENVIRONMENT`, `TESTING`, `DATABASE_CONFIG` and `LOG_LEVEL`. It holds no base setting and no method. `TESTING` is true, `LOG_LEVEL` is "INFO", and `DATABASE_CONFIG` is `{"DATABASE_NAME": "test"}`. |
| DomainConfig.DevClassVars | investing_algorithm_framework/domain/config.py:185-188 | `vars(DevConfig)` holds exactly the three attributes `DevConfig` declares: `ENVIRONMENT`, `DATABASE_CONFIG` and `LOG_LEVEL`. `LOG_LEVEL` is "INFO" and `DATABASE_CONFIG` is `{"DATABASE_NAME": "dev"}`. |
| DomainConfig.ClassVars | investing_algorithm_framework/domain/config.py:80-86 | The class dictionary each constructor copies is the class's own. For `Config` it is the declared settings, with their values, plus the methods. For a subclass it is exactly that subclass's declared keys, with `LOG_LEVEL` "INFO". `TestConfig`'s has `TESTING` true and the "test" database; `DevConfig`'s has the "dev" database. Every class's `ENVIRONMENT` entry is its environment's name. |
| DomainConfig.SubclassItemsOwnOnly | investing_algorithm_framework/domain/config.py:178-188 | `get("SQLITE_ENABLED")` is `True` on a `Config()`. On a `TestConfig()` or `DevConfig()` it is the default, because line 86 copies only the subclass's own dictionary. |
| LegacySettings.AttributeOf | investing_algorithm_framework/configuration/settings.py:112-117 | Attribute lookup tries the instance first, then the class. A name found in neither reads as `None` instead of raising. |
| LegacySettings.GetItem | investing_algorithm_framework/configuration/settings.py:109-110 | `config[k]` is the stored value for a registered key. A key that is neither an instance nor a class attribute reads as `None`. |
| LegacySettings.SetItem | investing_algorithm_framework/configuration/settings.py:88-90 | `config[k] = v` writes both the attribute and the dictionary entry. Afterwards `config[k]` is `v`, the attribute and dictionary views stay in agreement, and every other key reads as before. |
| LegacySettings.Contains | investing_algorithm_framework/configuration/settings.py:105-107 | `k in config` raises `KeyError` for a key never stored. For a stored key it is true exactly when the stored value is not `None`. |
| LegacySettings.Init | investing_algorithm_framework/configuration/settings.py:80-86 | Construction registers exactly the upper-case names listed by `dir(Config)`. Each holds the class attribute, or `None` when there is none. |
| LegacySettings.BaseNamesUpper | investing_algorithm_framework/configuration/settings.py:55-77 | Every attribute name the base class assigns is upper-case in the sense of `str.isupper`. |
| LegacySettings.Registration | investing_algorithm_framework/configuration/settings.py:83-86 | When every upper-case name `dir` reports is declared, the registered entries are exactly the declared attributes. |
| LegacySettings.BaseRegistration | investing_algorithm_framework/configuration/settings.py:55-86 | A base `Config` registers exactly its ten assigned attributes. `SCHEDULER_API_ENABLED`, only annotated at line 78, reads as `None`, and `in` raises `KeyError` for it. |
| LegacySettings.SubclassOnlyAttribute | investing_algorithm_framework/configuration/settings.py:120-125 | In `TestConfig`, `config["TESTING"]` is `True`, yet `"TESTING" in config` raises `KeyError`, because registration lists the base class only. `ENV` reads "TEST". |
| MarketCredentials.Credentials | investing_algorithm_framework/domain/services/market_service.py:110-116 | Without a credential service, `market_credentials` is the empty list. Otherwise it is the service's list. |
| MarketCredentials.AllCredentials | investing_algorithm_framework/domain/services/market_service.py:118-119 | `get_market_credentials` fails without a service and otherwise returns the service's list. |
| MarketCredentials.GetMarketCredential | investing_algorithm_framework/domain/services/market_service.py:121-130 | The result is `None` exactly when no credential's market matches the query case-insensitively, which includes the case of no service. |
| MarketCredentials.FirstForIsFirst | investing_algorithm_framework/domain/services/market_service.py:126-128 | The lookup succeeds exactly when some index holds a match with no match before it, and then it returns the credential at that first index. |
| MarketCredentials.QueryCaseInsensitive | investing_algorithm_framework/domain/services/market_service.py:127 | Querying with the upper-case or the lower-case form of the market gives the same answer. |
| OrderRepository.PortfolioWithIdentifier | investing_algorithm_framework/infrastructure/repositories/order_repository.py:36-39 | The portfolio found has the given identifier. Nothing is found exactly when no stored portfolio has it. |
| OrderRepository.PositionIdsOf | investing_algorithm_framework/infrastructure/repositories/order_repository.py:44-47 | An id is listed exactly when a position of that portfolio carries it. |
| OrderRepository.Admitted | investing_algorithm_framework/infrastructure/repositories/order_repository.py:44-90 | An order is kept exactly when it is stored and every filter admits it. The kept orders are a sub-multiset of the stored ones. |
| OrderRepository.WithSentinelId | investing_algorithm_framework/infrastructure/repositories/order_repository.py:41-42 | `filter_by(id=-1)` keeps exactly the stored orders whose id is -1. |
| OrderRepository.Insert | investing_algorithm_framework/infrastructure/repositories/order_repository.py:92 | Inserting into a newest-first sequence keeps it newest-first and adds exactly one copy of the order. |
| OrderRepository.SortNewestFirst | investing_algorithm_framework/infrastructure/repositories/order_repository.py:92 | `order_by(created_at.desc())` is a permutation of its input whose creation times never increase. |
| OrderRepository.Query | investing_algorithm_framework/infrastructure/repositories/order_repository.py:11-93 | The result is always a sub-multiset of the stored orders. For an unknown portfolio it holds exactly the orders with id -1. Otherwise it is, as a multiset, exactly the admitted orders, sorted newest first. |
| OrderRepository.QueryMembership | investing_algorithm_framework/infrastructure/repositories/order_repository.py:49-90 | Outside the unknown-portfolio case, an order is returned exactly when it is stored and satisfies every truthy parameter. The equality parameters must equal their column, and `position` must contain its position id. |
| OrderRepository.FalsyParamsKeepAll | investing_algorithm_framework/infrastructure/repositories/order_repository.py:36-90 | When every parameter is absent or falsy, the result is every stored order, newest first. |
| OrderRepository.UnknownPortfolioEmpty | investing_algorithm_framework/infrastructure/repositories/order_repository.py:36-42 | A truthy `portfolio_id` naming no portfolio yields an empty result when no stored order has id -1. |
| OrderRepository.KnownPortfolioScopes | investing_algorithm_framework/infrastructure/repositories/order_repository.py:44-48 | With a known `portfolio_id`, every returned order sits on a position of that portfolio. |
| OrderRepository.AddingParameterNarrows | investing_algorithm_framework/infrastructure/repositories/order_repository.py:36-90 | Setting a parameter that was falsy or absent never enlarges the result. |
| OrderRepository.UnreadKeyIgnored | investing_algorithm_framework/infrastructure/repositories/order_repository.py:12-34 | A key the repository does not read, such as `target_symbol` (it reads `symbol`), leaves the result unchanged. |
| Services.ScopedPortfolios | investing_algorithm_framework/app/algorithm.py:227-235 | The query lists exactly the stored portfolios matching every market or identifier argument that is not `None`. |
| Services.ScopedHeadIsFirst | investing_algorithm_framework/app/algorithm.py:237-240 | When the query finds something, `portfolios[0]` is the first stored portfolio in scope. |
| Services.ScopedHeadAtFirst | investing_algorithm_framework/app/algorithm.py:237-240 | Only one index can be the first in scope, so `portfolios[0]` is the portfolio at any index shown to be first. |
| Services.FindPortfolio | investing_algorithm_framework/app/algorithm.py:66 | `portfolio_service.find` fails exactly when no portfolio is in scope. Otherwise it returns the first one in scope. |
| Services.FindConfiguration | investing_algorithm_framework/app/algorithm.py:306-312 | The configuration `get_allocated` looks up is the first stored one matching every given argument. The lookup fails with the configuration not-found error exactly when none matches. |
| Services.FindPosition | investing_algorithm_framework/app/algorithm.py:260-262 | `position_service.find` returns a position of the portfolio in the symbol. It fails exactly when there is none. |
| Valuation.ComputeAllocated | investing_algorithm_framework/app/algorithm.py:323-340 | The nested loop's running total is the sum, over the portfolios in order, of each portfolio's held value. |
| Valuation.HeldValueIsHoldingsTotal | investing_algorithm_framework/app/algorithm.py:330-338 | Skipping trading-symbol positions in the loop gives the plain `amount × bid` total over the other positions. |
| Valuation.NoHoldingsNoValue | investing_algorithm_framework/app/algorithm.py:330-332 | A portfolio holding only its trading symbol is worth 0. |
| Valuation.TotalValueAppend | investing_algorithm_framework/app/algorithm.py:338 | The valuation of concatenated position lists is the sum of their valuations. |
| Valuation.PairOf | investing_algorithm_framework/app/algorithm.py:334-335 | The ticker symbol is `SYMBOL/TRADING` with no lower-case letter: the `/` sits right after the symbol's length. |
| Valuation.PairOfDetermines | investing_algorithm_framework/app/algorithm.py:334-335 | When neither symbol contains `/`, equal tickers come from the same upper-cased symbols. |
| Valuation.PairOfCaseInsensitive | investing_algorithm_framework/app/algorithm.py:284-286 | The ticker does not depend on how either symbol is capitalised. |
| Valuation.ConfigurationsInScope | investing_algorithm_framework/app/algorithm.py:295-312 | It gives the "Multiple portfolios found" error exactly in the ambiguous case. With both arguments given, it takes every configuration. Otherwise it succeeds exactly when some configuration matches the given argument, and then it yields one matching configuration. Every other failure is a configuration `NotFound`. |
| Valuation.PortfoliosFor | investing_algorithm_framework/app/algorithm.py:314-321 | It succeeds exactly when every configuration has a portfolio stored under its identifier. It then matches each configuration, in order, with such a portfolio. Otherwise it fails with a portfolio `NotFound`. |
| Valuation.GetAllocated | investing_algorithm_framework/app/algorithm.py:293-340 | As written: it raises "Multiple portfolios found" exactly in the ambiguous case. It succeeds exactly when the configuration scope and the portfolio lookup both succeed. Its only other errors are the failed lookups. On success the value is the summed holdings of exactly the portfolios the configuration scope selects. |
| Valuation.AsWrittenBothGivenIgnoresArguments | investing_algorithm_framework/app/algorithm.py:302-304 | As written, with both market and identifier given, the result is the same for every market and identifier. It succeeds exactly when every configuration has a stored portfolio. |
| Valuation.AsWrittenBothGivenSumsAll | investing_algorithm_framework/app/algorithm.py:302-340 | For every state where the as-written call succeeds with both market and identifier given, the value is the sum of the holdings of one stored portfolio per configuration, in configuration order, whatever the arguments name. |
| Valuation.AllocatedOverIsHoldingsSum | investing_algorithm_framework/app/algorithm.py:323-340 | The loop's running total over a list of portfolios equals the sum, portfolio by portfolio, of each portfolio's holdings valued in its trading symbol. |
| Valuation.AsWrittenIgnoresScope | investing_algorithm_framework/app/algorithm.py:302-304 | With both market and identifier given, the as-written valuation adds up every configured portfolio: 20 where the named portfolio is worth 10. |
| Valuation.ConfigurationsInScopeIntended | investing_algorithm_framework/app/algorithm.py:295-312 | Corrected: apart from the ambiguity error, it succeeds exactly when some configuration matches every given argument. It then yields exactly one such configuration. Every other failure is a configuration `NotFound`. |
| Valuation.GetAllocatedIntended | investing_algorithm_framework/app/algorithm.py:293-340 | Corrected: it has the same ambiguity error. It succeeds exactly when the corrected scope and the portfolio lookup both succeed, and it has the same lookup errors. |
| Valuation.IntendedValuesOnePortfolio | investing_algorithm_framework/app/algorithm.py:306-340 | The corrected value is the holdings value of one portfolio, the one stored under the identifier of a configuration in scope. |
| Valuation.AsWrittenAgreesUnlessBothGiven | investing_algorithm_framework/app/algorithm.py:302-312 | The as-written and corrected valuations agree whenever market or identifier is `None`. |
| Algorithm.NewOrderRequest | investing_algorithm_framework/app/algorithm.py:66-81 | It fails exactly when the market lookup finds no portfolio. The spec is PENDING, with the found portfolio's id and trading symbol, and carries the given type, side, price, amounts and flags. |
| Algorithm.CreateOrder | investing_algorithm_framework/app/algorithm.py:54-81 | The spec is PENDING in the first stored portfolio of the market, with its id and trading symbol. It carries the given type, price, side, target symbol and amounts, and the given execute and validate flags. It fails with the portfolio lookup's not-found error exactly when no portfolio is in the market. |
| Algorithm.CreateLimitOrder | investing_algorithm_framework/app/algorithm.py:83-109 | The spec is always a LIMIT order at the given price. It is PENDING in the first stored portfolio of the market and carries the given side, target symbol, amounts and flags. It fails with the not-found error exactly when no portfolio is in the market. |
| Algorithm.CreateMarketOrder | investing_algorithm_framework/app/algorithm.py:111-135 | The spec is always a MARKET order with no price. It is PENDING in the first stored portfolio of the market and carries the given side, target symbol, amounts and flags. It fails with the not-found error exactly when no portfolio is in the market. |
| Algorithm.HelperDefaults | investing_algorithm_framework/app/algorithm.py:54-135 | By default `create_order` and `create_market_order` neither execute nor validate, and `create_limit_order` does both. |
| Algorithm.GetOrderQuery | investing_algorithm_framework/app/algorithm.py:166-199 | Each filter key is present exactly when its argument is truthy, and holds that argument. `position` is present exactly when the market is truthy, and lists the ids of that portfolio's positions. It fails only when that market's lookup fails, and then with the portfolio not-found error. |
| Algorithm.OrdersPortfolio | investing_algorithm_framework/app/algorithm.py:210-213 | Without a market it is the first stored portfolio, and `IndexError` when there is none. With a market it is the market lookup. |
| Algorithm.GetOrdersQuery | investing_algorithm_framework/app/algorithm.py:215-224 | The query has exactly the keys `position`, `target_symbol`, `status`, `type` and `side`. `position` lists the portfolio's position ids. |
| Algorithm.GetOrders | investing_algorithm_framework/app/algorithm.py:201-224 | It fails exactly when the portfolio cannot be found. Otherwise it returns a newest-first sub-multiset of the stored orders. |
| Algorithm.OrdersFiltersAdmitExactly | investing_algorithm_framework/infrastructure/repositories/order_repository.py:52-90 | The filters `get_orders` builds admit an order exactly when it sits on one of the portfolio's positions, when the portfolio has any, and has each truthy status, type and side. |
| Algorithm.GetOrdersMembership | investing_algorithm_framework/app/algorithm.py:215-224 | Once the portfolio is found, an order is returned exactly when it is stored and matches: it must sit on a position of the portfolio when the portfolio has any, and have each truthy status, type and side. |
| Algorithm.GetOrdersIntended | investing_algorithm_framework/app/algorithm.py:201-224 | Corrected `get_orders`: it fails exactly when the portfolio cannot be found. Otherwise it returns a newest-first sub-multiset of the stored orders. |
| Algorithm.IntendedFiltersAdmitExactly | investing_algorithm_framework/infrastructure/repositories/order_repository.py:52-90 | For a portfolio with positions, the corrected filters admit an order exactly when it sits on one of those positions and matches each truthy target symbol, status, type and side. |
| Algorithm.GetOrdersIntendedMembership | investing_algorithm_framework/app/algorithm.py:215-224 | Corrected: an order is returned exactly when it is stored, sits on a position of the portfolio, and matches every truthy filter, the target symbol included. |
| Algorithm.GetOrdersScoped | investing_algorithm_framework/app/algorithm.py:215-224 | When the portfolio holds positions, every returned order sits on one of them and has each truthy status, type and side asked for. |
| Algorithm.GetOrdersIgnoresTargetSymbol | investing_algorithm_framework/app/algorithm.py:219 | The target symbol passed to `get_orders` never changes its result. |
| Algorithm.GetOrdersUnscopedWithoutPositions | investing_algorithm_framework/app/algorithm.py:215-218 | When the portfolio has no positions and no other filter is given, `get_orders` returns every stored order of every portfolio. |
| Algorithm.GetPositions | investing_algorithm_framework/app/algorithm.py:226-243 | It raises "No portfolio found." exactly when nothing is in scope. Otherwise it returns exactly the list of the first in-scope portfolio's positions, in the position service's order. |
| Algorithm.GetPosition | investing_algorithm_framework/app/algorithm.py:245-262 | It raises "No portfolio found." exactly when nothing is in scope. It fails with a position `NotFound` exactly when the first portfolio in scope has no position in the symbol, and it has no other error. Otherwise it returns that portfolio's position in the symbol. |
| Algorithm.Percentage | investing_algorithm_framework/app/algorithm.py:287-288 | A zero allocation raises `ZeroDivisionError`. Otherwise the result times the allocation is `amount × bid × 100`. |
| Algorithm.GetPositionPercentage | investing_algorithm_framework/app/algorithm.py:264-288 | It raises "No portfolio found." exactly when nothing is in scope. It raises position `NotFound` exactly when the first portfolio in scope lacks the position. It raises `ZeroDivisionError` exactly when that portfolio's allocated value is 0. Any other error is the allocation lookup's. It succeeds exactly when the position exists and the allocation is non-zero. The result is that position at the bid of the upper-cased pair, as a percentage of the portfolio's allocated value. |
| Algorithm.SoleHoldingIsWhole | investing_algorithm_framework/app/algorithm.py:284-288 | With unique identifiers, a position that is its portfolio's only holding is 100%. |
| Algorithm.GetPortfolio | investing_algorithm_framework/app/algorithm.py:143-148 | Without a market it is the first stored portfolio, or the portfolio not-found error when none is stored. With a market it raises `TypeError`, because the query is a set containing a dict. |
| Algorithm.GetUnallocated | investing_algorithm_framework/app/algorithm.py:150-160 | A truthy market raises `TypeError`. No portfolio gives a portfolio `NotFound`. Otherwise it gives a position `NotFound` exactly when the first portfolio has no position in its own trading symbol, and it returns that position's amount when there is one. |

## Left out

- The abstract exchange methods of the market service are not modelled: they do exchange I/O. Tickers are the uninterpreted `bid(pair)` of the state. `market_service.initialize(configuration)` before each ticker is left out, so the bid does not depend on the market.
- Scheduling and the strategy hooks are left out because they only delegate to code that is not part of this model. This covers `start`, `run_strategies`, `add_strategies`, `running`, `reset` and the `config` accessors.
- `check_order_status`, order creation and validation inside `order_service.create`, and `order_service.find` are left out for the same reason. `get_order` is modelled up to the query it hands to `find`.
- The portfolio, position and configuration services are not part of this model. `find` is taken to return the first stored match or fail, and `get_all` the stored matches in order. The position service's `{"portfolio": identifier}` query is modelled as "positions whose portfolio id is that portfolio's".
- `Repository.get_query_param` is not part of this model. A parameter reads as the dictionary item, and an absent key reads as `None`.
- `from_value` normalisation of side, type and status strings is left out. Query values are compared with the canonical enum value strings.
- `OrderSide.from_value(side)` in the limit and market helpers is left out for the same reason; the side is already an enum.
- Amounts, prices and bids are `real`, so there is no floating-point rounding.
- Case mapping is ASCII only; Python's `str.upper`, `str.lower` and `str.isupper` follow Unicode.
- `os.path` and `os.getenv` values are fields of `Host`, not computed.
- `vars(self.__class__)` in the domain `Config` constructor is modelled as the class's own dictionary. For `Config` that means the declared settings plus the methods `get`, `set` and `from_dict`, each as a `MethodValue`. For a subclass it means only the subclass's own attributes. The dunder entries (`__module__`, `__init__`, `__str__`, `__doc__`, `__dict__`, `__weakref__`) are not modelled.
- `dir(Config)` in the settings constructor is a parameter: a set of names that includes the declared ones. Inherited `object` names are never upper-case.
- Configuration keys are strings, so the non-string keys of `from_dict` are not modelled.
- `Config.__str__` of both configuration classes is left out: it formats text only.
- LegacySettings.AttributeOf: a method name such as `keys` reads as `None` here, whereas the settings `__getattribute__` returns the bound method, so `config["keys"]` is not modelled. The `logger.error` call made when the attribute is missing is left out as logging I/O.
- LegacySettings.GetItem: inherits the same gap for method names, because it reads through `AttributeOf`.
- Algorithm.SoleHoldingIsWhole: requires unique portfolio identifiers, a symbol that is not a trading symbol, and at most one non-trading holding in every stored portfolio, not only the one in scope. Without them, the allocated value may belong to another portfolio, leave the position out, or include other holdings.
- OrderRepository.UnknownPortfolioEmpty: assumes no stored order has id -1, since ids are assigned from 1. The source's `filter_by(id=-1)` is modelled as written.
- OrderRepository.AddingParameterNarrows: assumes no stored order has id -1, for the same reason, because an added unknown-portfolio parameter narrows through the `id=-1` stand-in.
- Services.FindPortfolio: a `None` market imposes no constraint, so the `create_*` helpers called without a market use the first stored portfolio. An empty-string market is an equality filter like any other value. Both readings are assumptions about the portfolio service, which is not part of this model.
- Algorithm.GetOrderQuery: `get_order` sends `reference_id` and `target_symbol`, while the order repository filters on `external_id` and `symbol` (investing_algorithm_framework/infrastructure/repositories/order_repository.py:12-13, :49-50). The model stops at the query handed to `order_service.find`, so what `find` does with those two keys is not modelled.
- Valuation.ConfigurationsInScope: `get_allocated` passes `None` for an argument that was not given (lines 307-310). A `None` value is taken to impose no constraint, because the configuration service is not part of this model.

## Findings

| source | as written | input that shows it | evidently intended | confidence | as-written member | corrected member |
|---|---|---|---|---|---|---|
| investing_algorithm_framework/app/algorithm.py:302-304 | With both `market` and `identifier` given, `get_allocated` takes every portfolio configuration and sums all of them. | Two configurations, `a` on BINANCE/USDT and `b` on BITVAVO/EUR, each holding one coin bid at 10. `get_allocated(market="BINANCE", identifier="a")` returns 20. | Value only the configuration matching both arguments, which gives 10. | medium, not executed | Valuation.GetAllocated, Valuation.AsWrittenIgnoresScope, Valuation.AsWrittenBothGivenSumsAll | Valuation.GetAllocatedIntended, Valuation.IntendedValuesOnePortfolio |
| investing_algorithm_framework/app/algorithm.py:219 | `get_orders` sends the target symbol under the key `"target_symbol"`. The order repository reads only `"symbol"` (order_repository.py lines 29-31), so the filter is never applied. | A portfolio holding positions in BTC and ETH, with one order on each. `get_orders(target_symbol="BTC")` returns both orders. | Return only the orders whose target symbol is the one asked for. | medium, not executed | Algorithm.GetOrders, Algorithm.GetOrdersIgnoresTargetSymbol | Algorithm.GetOrdersIntended, Algorithm.GetOrdersIntendedMembership |
| investing_algorithm_framework/app/algorithm.py:215-218 | A portfolio without positions sends `"position": []`. An empty list is falsy, so the repository (order_repository.py line 77) drops the position filter and returns every portfolio's orders. | Portfolio `a` has no positions, and portfolio `b` has one order. `get_orders(market=a.market)` returns `b`'s order. | Return no orders for a portfolio without positions. | medium, not executed | Algorithm.GetOrders, Algorithm.GetOrdersUnscopedWithoutPositions | Algorithm.GetOrdersIntended, Algorithm.GetOrdersIntendedMembership |

=== FILE: algorithm.dfy ===
/**
  The algorithm facade strategies call: order helpers that build order specs
  for the order service, order and position queries scoped to a portfolio,
  and the position percentage of the allocated value.
 */
module Algorithm {
  import opened Wrappers
  import opened Domain
  import opened Services
  import opened Valuation
  import opened OrderRepository

  /** The dictionary handed to `order_service.create`. A market order carries no price. */
  datatype OrderSpec = OrderSpec(
    targetSymbol: string,
    price: Option<real>,
    amountTargetSymbol: Option<real>,
    amountTradingSymbol: Option<real>,
    orderType: OrderType,
    side: OrderSide,
    portfolioId: int,
    status: OrderStatus,
    tradingSymbol: string)

  /** A call `order_service.create(spec, execute=…, validate=…)`. */
  datatype OrderRequest = OrderRequest(spec: OrderSpec, execute: bool, validate: bool)

  /** A spec is a new order of the portfolio it is placed in: pending, in that portfolio's trading symbol. */
  predicate PlacedIn(spec: OrderSpec, p: Portfolio) {
    spec.status == PENDING && spec.portfolioId == p.id && spec.tradingSymbol == p.tradingSymbol
  }

  /**
    `r` asks for a pending order in the first stored portfolio of the market,
    carrying the given target symbol, side, amounts and flags.
   */
  ghost predicate RequestInFirstOfMarket(
    s: AppState, market: Option<string>, targetSymbol: string, side: OrderSide,
    amountTargetSymbol: Option<real>, amountTradingSymbol: Option<real>, execute: bool, validate: bool, r: OrderRequest)
  {
    && (exists i :: IsFirstInScope(s.portfolios, market, None, i) && PlacedIn(r.spec, s.portfolios[i]))
    && r.spec.targetSymbol == targetSymbol && r.spec.side == side
    && r.spec.amountTargetSymbol == amountTargetSymbol && r.spec.amountTradingSymbol == amountTradingSymbol
    && r.execute == execute && r.validate == validate
  }

  /** The request for a new order in the first portfolio of the market, or the failed lookup. */
  function NewOrderRequest(
    s: AppState, targetSymbol: string, price: Option<real>, orderType: OrderType, side: OrderSide,
    amountTargetSymbol: Option<real>, amountTradingSymbol: Option<real>, market: Option<string>,
    execute: bool, validate: bool): (r: Result<OrderRequest, Error>)
    ensures r.Failure? <==> FindPortfolio(s.portfolios, market, None).Failure?
    ensures r.Failure? ==> r.error == NotFound("portfolio")
    ensures r.Success? ==> PlacedIn(r.value.spec, FindPortfolio(s.portfolios, market, None).value)
    ensures r.Success? ==> r.value.spec.orderType == orderType && r.value.spec.side == side
                           && r.value.spec.price == price && r.value.spec.targetSymbol == targetSymbol
                           && r.value.spec.amountTargetSymbol == amountTargetSymbol
                           && r.value.spec.amountTradingSymbol == amountTradingSymbol
    ensures r.Success? ==> r.value.execute == execute && r.value.validate == validate
  {
    var portfolio :- FindPortfolio(s.portfolios, market, None);
    Success(OrderRequest(
      OrderSpec(targetSymbol, price, amountTargetSymbol, amountTradingSymbol, orderType, side,
                portfolio.id, PENDING, portfolio.tradingSymbol),
      execute, validate))
  }

  /** `Algorithm.create_order`: type and side as given; neither executed nor validated by default. */
  function CreateOrder(
    s: AppState, targetSymbol: string, price: Option<real>, orderType: OrderType, side: OrderSide,
    amountTargetSymbol: Option<real> := None, amountTradingSymbol: Option<real> := None,
    market: Option<string> := None, execute: bool := false, validate: bool := false): (r: Result<OrderRequest, Error>)
    ensures r.Failure? <==> forall p :: p in s.portfolios ==> !PortfolioInScope(p, market, None)
    ensures r.Failure? ==> r.error == NotFound("portfolio")
    ensures r.Success? ==> RequestInFirstOfMarket(s, market, targetSymbol, side, amountTargetSymbol, amountTradingSymbol,
                                                  execute, validate, r.value)
    ensures r.Success? ==> r.value.spec.orderType == orderType && r.value.spec.price == price
  {
    NewOrderRequest(s, targetSymbol, price, orderType, side, amountTargetSymbol, amountTradingSymbol,
                    market, execute, validate)
  }

  /** `Algorithm.create_limit_order`: always a priced limit order; executed and validated by default. */
  function CreateLimitOrder(
    s: AppState, targetSymbol: string, price: real, side: OrderSide,
    amountTargetSymbol: Option<real> := None, amountTradingSymbol: Option<real> := None,
    market: Option<string> := None, execute: bool := true, validate: bool := true): (r: Result<OrderRequest, Error>)
    ensures r.Failure? <==> forall p :: p in s.portfolios ==> !PortfolioInScope(p, market, None)
    ensures r.Failure? ==> r.error == NotFound("portfolio")
    ensures r.Success? ==> RequestInFirstOfMarket(s, market, targetSymbol, side, amountTargetSymbol, amountTradingSymbol,
                                                  execute, validate, r.value)
    ensures r.Success? ==> r.value.spec.orderType == LIMIT && r.value.spec.price == Some(price)
  {
    NewOrderRequest(s, targetSymbol, Some(price), LIMIT, side, amountTargetSymbol, amountTradingSymbol,
                    market, execute, validate)
  }

  /** `Algorithm.create_market_order`: always an unpriced market order; neither executed nor validated by default. */
  function CreateMarketOrder(
    s: AppState, targetSymbol: string, side: OrderSide,
    amountTargetSymbol: Option<real> := None, amountTradingSymbol: Option<real> := None,
    market: Option<string> := None, execute: bool := false, validate: bool := false): (r: Result<OrderRequest, Error>)
    ensures r.Failure? <==> forall p :: p in s.portfolios ==> !PortfolioInScope(p, market, None)
    ensures r.Failure? ==> r.error == NotFound("portfolio")
    ensures r.Success? ==> RequestInFirstOfMarket(s, market, targetSymbol, side, amountTargetSymbol, amountTradingSymbol,
                                                  execute, validate, r.value)
    ensures r.Success? ==> r.value.spec.orderType == MARKET && r.value.spec.price.None?
  {
    NewOrderRequest(s, targetSymbol, None, MARKET, side, amountTargetSymbol, amountTradingSymbol,
                    market, execute, validate)
  }

  /** The flags each helper passes on when the caller leaves them out. */
  lemma HelperDefaults(s: AppState, targetSymbol: string, price: real, side: OrderSide, orderType: OrderType)
    ensures CreateOrder(s, targetSymbol, Some(price), orderType, side).Success? ==>
              !CreateOrder(s, targetSymbol, Some(price), orderType, side).value.execute
              && !CreateOrder(s, targetSymbol, Some(price), orderType, side).value.validate
    ensures CreateLimitOrder(s, targetSymbol, price, side).Success? ==>
              CreateLimitOrder(s, targetSymbol, price, side).value.execute
              && CreateLimitOrder(s, targetSymbol, price, side).value.validate
    ensures CreateMarketOrder(s, targetSymbol, side).Success? ==>
              !CreateMarketOrder(s, targetSymbol, side).value.execute
              && !CreateMarketOrder(s, targetSymbol, side).value.validate
  {
  }

  /** `if market:` — a market name that is given and non-empty. */
  predicate MarketGiven(market: Option<string>) {
    market.Some? && market.value != ""
  }

  /** The filter keys `get_order` forwards when their argument is truthy. */
  const OrderFilterKeys: set<string> := {"reference_id", "target_symbol", "trading_symbol", "side", "type"}

  /** The argument `get_order` forwards under `key`. */
  function FilterArgument(
    key: string, referenceId: QValue, targetSymbol: QValue, tradingSymbol: QValue, side: QValue, orderType: QValue): QValue
  {
    match key
    case "reference_id" => referenceId
    case "target_symbol" => targetSymbol
    case "trading_symbol" => tradingSymbol
    case "side" => side
    case "type" => orderType
    case _ => QNone
  }

  /** `Algorithm.get_order`: the query handed to `order_service.find`. */
  function GetOrderQuery(
    s: AppState, referenceId: QValue := QNone, market: Option<string> := None, targetSymbol: QValue := QNone,
    tradingSymbol: QValue := QNone, side: QValue := QNone, orderType: QValue := QNone): (r: Result<QueryParams, Error>)
    ensures r.Failure? <==> MarketGiven(market) && FindPortfolio(s.portfolios, market, None).Failure?
    ensures r.Failure? ==> r.error == NotFound("portfolio")
    ensures r.Success? ==> r.value.Keys <= OrderFilterKeys + {"position"}
    ensures r.Success? ==> ("reference_id" in r.value <==> Truthy(referenceId)) && Param(r.value, "reference_id") == (if Truthy(referenceId) then referenceId else QNone)
    ensures r.Success? ==> ("target_symbol" in r.value <==> Truthy(targetSymbol)) && Param(r.value, "target_symbol") == (if Truthy(targetSymbol) then targetSymbol else QNone)
    ensures r.Success? ==> ("trading_symbol" in r.value <==> Truthy(tradingSymbol)) && Param(r.value, "trading_symbol") == (if Truthy(tradingSymbol) then tradingSymbol else QNone)
    ensures r.Success? ==> ("side" in r.value <==> Truthy(side)) && Param(r.value, "side") == (if Truthy(side) then side else QNone)
    ensures r.Success? ==> ("type" in r.value <==> Truthy(orderType)) && Param(r.value, "type") == (if Truthy(orderType) then orderType else QNone)
    ensures r.Success? ==> ("position" in r.value <==> MarketGiven(market))
    ensures r.Success? && MarketGiven(market) ==>
              r.value["position"] == QIds(PositionIdsOf(s.positions, FindPortfolio(s.portfolios, market, None).value))
  {
    var filters: QueryParams :=
      map k | k in OrderFilterKeys && Truthy(FilterArgument(k, referenceId, targetSymbol, tradingSymbol, side, orderType))
            :: FilterArgument(k, referenceId, targetSymbol, tradingSymbol, side, orderType);
    if MarketGiven(market) then
      var portfolio :- FindPortfolio(s.portfolios, market, None);
      Success(filters["position" := QIds(PositionIdsOf(s.positions, portfolio))])
    else
      Success(filters)
  }

  /** The portfolio `get_orders` scopes to: the first stored one without a market, else the market's. */
  function OrdersPortfolio(s: AppState, market: Option<string>): (r: Result<Portfolio, Error>)
    ensures market.None? ==> (r.Failure? <==> s.portfolios == [])
    ensures market.None? && r.Success? ==> r.value == s.portfolios[0]
    ensures market.None? && r.Failure? ==> r.error == IndexError
    ensures market.Some? ==> r == FindPortfolio(s.portfolios, market, None)
  {
    if market.None? then
      if s.portfolios == [] then Failure(IndexError) else Success(s.portfolios[0])
    else
      FindPortfolio(s.portfolios, market, None)
  }

  /** The filters of `get_orders` that the repository reads: positions, status, type and side. */
  function OrdersFilters(s: AppState, p: Portfolio, status: QValue, orderType: QValue, side: QValue): QueryParams {
    map["position" := QIds(PositionIdsOf(s.positions, p)), "status" := status, "type" := orderType, "side" := side]
  }

  /** Every parameter the repository reads from the `get_orders` filters, plus a `"symbol"` entry `t`. */
  lemma FiltersParams(s: AppState, p: Portfolio, t: QValue, status: QValue, orderType: QValue, side: QValue, q: QueryParams)
    requires q == OrdersFilters(s, p, status, orderType, side) || q == OrdersFilters(s, p, status, orderType, side)["symbol" := t]
    ensures Param(q, "position") == QIds(PositionIdsOf(s.positions, p))
    ensures Param(q, "status") == status && Param(q, "type") == orderType && Param(q, "side") == side
    ensures Param(q, "symbol") == (if "symbol" in q then t else QNone)
    ensures Param(q, "portfolio_id") == QNone && Param(q, "external_id") == QNone && Param(q, "price") == QNone
    ensures Param(q, "amount_target_symbol") == QNone && Param(q, "amount_trading_symbol") == QNone
    ensures Param(q, "trading_symbol") == QNone
  {
  }

  /** The query `get_orders` hands to `order_service.get_all`. */
  function GetOrdersQuery(
    s: AppState, p: Portfolio, targetSymbol: QValue, status: QValue, orderType: QValue, side: QValue): (q: QueryParams)
    ensures q.Keys == {"position", "target_symbol", "status", "type", "side"}
    ensures q["position"] == QIds(PositionIdsOf(s.positions, p))
    ensures q["status"] == status && q["type"] == orderType && q["side"] == side
    ensures q["target_symbol"] == targetSymbol
  {
    OrdersFilters(s, p, status, orderType, side)["target_symbol" := targetSymbol]
  }

  /** `Algorithm.get_orders`, evaluated by the order repository's query. */
  function GetOrders(
    s: AppState, targetSymbol: QValue := QNone, status: QValue := QNone, orderType: QValue := QNone,
    side: QValue := QNone, market: Option<string> := None): (r: Result<seq<Order>, Error>)
    ensures r.Failure? <==> OrdersPortfolio(s, market).Failure?
    ensures r.Success? ==> multiset(r.value) <= multiset(s.orders)
    ensures r.Success? ==> NewestFirst(r.value)
  {
    var portfolio :- OrdersPortfolio(s, market);
    Success(Query(StoreOf(s), GetOrdersQuery(s, portfolio, targetSymbol, status, orderType, side)))
  }

  /**
    When the scoped portfolio holds positions, every order `get_orders`
    returns sits on one of them and has each status, type and side asked for.
   */
  lemma GetOrdersScoped(
    s: AppState, targetSymbol: QValue, status: QValue, orderType: QValue, side: QValue, market: Option<string>,
    p: Portfolio, o: Order)
    requires OrdersPortfolio(s, market) == Success(p)
    requires PositionIdsOf(s.positions, p) != []
    requires GetOrders(s, targetSymbol, status, orderType, side, market).Success?
    requires o in GetOrders(s, targetSymbol, status, orderType, side, market).value
    ensures exists x :: x in s.positions && x.portfolioId == p.id && x.id == o.positionId
    ensures Truthy(status) ==> status == QStr(StatusValue(o.status))
    ensures Truthy(orderType) ==> orderType == QStr(TypeValue(o.orderType))
    ensures Truthy(side) ==> side == QStr(SideValue(o.side))
  {
    var filters := OrdersFilters(s, p, status, orderType, side);
    GetOrdersRunsQuery(s, targetSymbol, status, orderType, side, market, p);
    assert Admits(StoreOf(s), filters, o) by {
      assert "portfolio_id" !in filters;
      TargetSymbolUnread();
      AdmittedDespiteUnread(StoreOf(s), filters, "target_symbol", targetSymbol, o);
    }
    OrdersFiltersAdmit(s, p, status, orderType, side, o);
  }

  /** The repository never reads the key `get_orders` sends its target symbol under. */
  lemma TargetSymbolUnread()
    ensures "target_symbol" !in ReadKeys
  {
  }

  /** Once the portfolio is found, `get_orders` is the repository query on its filters. */
  lemma GetOrdersRunsQuery(
    s: AppState, targetSymbol: QValue, status: QValue, orderType: QValue, side: QValue, market: Option<string>,
    p: Portfolio)
    requires OrdersPortfolio(s, market) == Success(p)
    ensures GetOrders(s, targetSymbol, status, orderType, side, market)
            == Success(Query(StoreOf(s), OrdersFilters(s, p, status, orderType, side)["target_symbol" := targetSymbol]))
  {
  }

  /**
    What the `get_orders` filters demand of an order: a position of the
    portfolio when it holds any, and each truthy status, type and side.
   */
  predicate OrderMatches(s: AppState, p: Portfolio, status: QValue, orderType: QValue, side: QValue, o: Order) {
    && (PositionIdsOf(s.positions, p) != [] ==> o.positionId in PositionIdsOf(s.positions, p))
    && (Truthy(status) ==> status == QStr(StatusValue(o.status)))
    && (Truthy(orderType) ==> orderType == QStr(TypeValue(o.orderType)))
    && (Truthy(side) ==> side == QStr(SideValue(o.side)))
  }

  /** The repository admits an order under the `get_orders` filters exactly when it matches them. */
  lemma OrdersFiltersAdmitExactly(s: AppState, p: Portfolio, status: QValue, orderType: QValue, side: QValue, o: Order)
    ensures Admits(StoreOf(s), OrdersFilters(s, p, status, orderType, side), o) <==> OrderMatches(s, p, status, orderType, side, o)
  {
    FiltersParams(s, p, QNone, status, orderType, side, OrdersFilters(s, p, status, orderType, side));
  }

  /**
    `get_orders` membership: once the portfolio is found, an order is returned
    exactly when it is stored and matches the filters.
   */
  lemma GetOrdersMembership(
    s: AppState, targetSymbol: QValue, status: QValue, orderType: QValue, side: QValue, market: Option<string>,
    p: Portfolio, o: Order)
    requires OrdersPortfolio(s, market) == Success(p)
    ensures GetOrders(s, targetSymbol, status, orderType, side, market).Success?
    ensures o in GetOrders(s, targetSymbol, status, orderType, side, market).value
            <==> o in s.orders && OrderMatches(s, p, status, orderType, side, o)
  {
    var st, filters := StoreOf(s), OrdersFilters(s, p, status, orderType, side);
    FiltersParams(s, p, QNone, status, orderType, side, filters);
    assert !PortfolioMissing(st, filters);
    GetOrdersRunsQuery(s, targetSymbol, status, orderType, side, market, p);
    TargetSymbolUnread();
    UnreadKeyIgnored(st, filters, "target_symbol", targetSymbol);
    QueryMembership(st, filters, o);
    OrdersFiltersAdmitExactly(s, p, status, orderType, side, o);
  }

  /**
    `get_orders` as evidently intended: the target symbol under `"symbol"`,
    the key the repository reads, and no orders for a portfolio without
    positions.
   */
  function GetOrdersIntended(
    s: AppState, targetSymbol: QValue := QNone, status: QValue := QNone, orderType: QValue := QNone,
    side: QValue := QNone, market: Option<string> := None): (r: Result<seq<Order>, Error>)
    ensures r.Failure? <==> OrdersPortfolio(s, market).Failure?
    ensures r.Success? ==> multiset(r.value) <= multiset(s.orders)
    ensures r.Success? ==> NewestFirst(r.value)
  {
    var portfolio :- OrdersPortfolio(s, market);
    if PositionIdsOf(s.positions, portfolio) == [] then Success([])
    else Success(Query(StoreOf(s), OrdersFilters(s, portfolio, status, orderType, side)["symbol" := targetSymbol]))
  }

  /** What the corrected `get_orders` demands: a position of the portfolio and every truthy filter. */
  predicate IntendedMatch(
    s: AppState, p: Portfolio, targetSymbol: QValue, status: QValue, orderType: QValue, side: QValue, o: Order)
  {
    && o.positionId in PositionIdsOf(s.positions, p)
    && (Truthy(targetSymbol) ==> targetSymbol == QStr(o.targetSymbol))
    && (Truthy(status) ==> status == QStr(StatusValue(o.status)))
    && (Truthy(orderType) ==> orderType == QStr(TypeValue(o.orderType)))
    && (Truthy(side) ==> side == QStr(SideValue(o.side)))
  }

  /** The repository admits an order under the corrected filters exactly when it matches them. */
  lemma IntendedFiltersAdmitExactly(
    s: AppState, p: Portfolio, targetSymbol: QValue, status: QValue, orderType: QValue, side: QValue, o: Order)
    requires PositionIdsOf(s.positions, p) != []
    ensures Admits(StoreOf(s), OrdersFilters(s, p, status, orderType, side)["symbol" := targetSymbol], o)
            <==> IntendedMatch(s, p, targetSymbol, status, orderType, side, o)
  {
    FiltersParams(s, p, targetSymbol, status, orderType, side, OrdersFilters(s, p, status, orderType, side)["symbol" := targetSymbol]);
  }

  /**
    Corrected `get_orders` membership: an order is returned exactly when it
    is stored, sits on a position of the portfolio and matches every truthy
    filter, the target symbol included.
   */
  lemma GetOrdersIntendedMembership(
    s: AppState, targetSymbol: QValue, status: QValue, orderType: QValue, side: QValue, market: Option<string>,
    p: Portfolio, o: Order)
    requires OrdersPortfolio(s, market) == Success(p)
    ensures GetOrdersIntended(s, targetSymbol, status, orderType, side, market).Success?
    ensures o in GetOrdersIntended(s, targetSymbol, status, orderType, side, market).value
            <==> o in s.orders && IntendedMatch(s, p, targetSymbol, status, orderType, side, o)
  {
    var r := GetOrdersIntended(s, targetSymbol, status, orderType, side, market);
    if PositionIdsOf(s.positions, p) == [] {
      assert r == Success([]);
      assert !IntendedMatch(s, p, targetSymbol, status, orderType, side, o);
    } else {
      var filters := OrdersFilters(s, p, status, orderType, side)["symbol" := targetSymbol];
      assert r == Success(Query(StoreOf(s), filters));
      IntendedQueryMembership(s, p, targetSymbol, status, orderType, side, o);
    }
  }

  /** The repository query on the corrected filters returns exactly the stored orders that match them. */
  lemma IntendedQueryMembership(
    s: AppState, p: Portfolio, targetSymbol: QValue, status: QValue, orderType: QValue, side: QValue, o: Order)
    requires PositionIdsOf(s.positions, p) != []
    ensures o in Query(StoreOf(s), OrdersFilters(s, p, status, orderType, side)["symbol" := targetSymbol])
            <==> o in s.orders && IntendedMatch(s, p, targetSymbol, status, orderType, side, o)
  {
    var st, filters := StoreOf(s), OrdersFilters(s, p, status, orderType, side)["symbol" := targetSymbol];
    FiltersParams(s, p, targetSymbol, status, orderType, side, filters);
    assert !PortfolioMissing(st, filters);
    QueryMembership(st, filters, o);
    IntendedFiltersAdmitExactly(s, p, targetSymbol, status, orderType, side, o);
  }

  /** An order returned for filters plus one unread key is admitted by the filters alone. */
  lemma AdmittedDespiteUnread(st: Store, filters: QueryParams, key: string, v: QValue, o: Order)
    requires key !in ReadKeys
    requires "portfolio_id" !in filters
    requires o in Query(st, filters[key := v])
    ensures Admits(st, filters, o)
  {
    UnreadKeyIgnored(st, filters, key, v);
    QueryMembership(st, filters, o);
  }

  /** What the four `get_orders` filters demand of an order they admit. */
  lemma OrdersFiltersAdmit(s: AppState, p: Portfolio, status: QValue, orderType: QValue, side: QValue, o: Order)
    requires PositionIdsOf(s.positions, p) != []
    requires Admits(StoreOf(s), OrdersFilters(s, p, status, orderType, side), o)
    ensures exists x :: x in s.positions && x.portfolioId == p.id && x.id == o.positionId
    ensures Truthy(status) ==> status == QStr(StatusValue(o.status))
    ensures Truthy(orderType) ==> orderType == QStr(TypeValue(o.orderType))
    ensures Truthy(side) ==> side == QStr(SideValue(o.side))
  {
    var filters := OrdersFilters(s, p, status, orderType, side);
    assert Param(filters, "position") == QIds(PositionIdsOf(s.positions, p));
    assert Param(filters, "status") == status && Param(filters, "type") == orderType && Param(filters, "side") == side;
    assert o.positionId in PositionIdsOf(s.positions, p);
  }

  /**
    `get_orders` sends its target symbol under `"target_symbol"`, a key the
    repository does not read, so the target symbol never narrows the result.
   */
  lemma GetOrdersIgnoresTargetSymbol(
    s: AppState, t1: QValue, t2: QValue, status: QValue, orderType: QValue, side: QValue, market: Option<string>)
    ensures GetOrders(s, t1, status, orderType, side, market) == GetOrders(s, t2, status, orderType, side, market)
  {
    if OrdersPortfolio(s, market).Success? {
      var filters := OrdersFilters(s, OrdersPortfolio(s, market).value, status, orderType, side);
      TargetSymbolUnread();
      UnreadKeyIgnored(StoreOf(s), filters, "target_symbol", t1);
      UnreadKeyIgnored(StoreOf(s), filters, "target_symbol", t2);
    }
  }

  /**
    A scoped portfolio without positions sends an empty, falsy id list, so
    with no other filter `get_orders` returns every stored order, whichever
    portfolio it belongs to.
   */
  lemma GetOrdersUnscopedWithoutPositions(s: AppState, targetSymbol: QValue, market: Option<string>)
    requires OrdersPortfolio(s, market).Success?
    requires PositionIdsOf(s.positions, OrdersPortfolio(s, market).value) == []
    ensures GetOrders(s, targetSymbol, QNone, QNone, QNone, market).Success?
    ensures multiset(GetOrders(s, targetSymbol, QNone, QNone, QNone, market).value) == multiset(s.orders)
  {
    var p := OrdersPortfolio(s, market).value;
    var filters := OrdersFilters(s, p, QNone, QNone, QNone);
    NoFilterWithoutPositions(s, p);
    TargetSymbolUnread();
    FalsyWithUnreadKeepAll(StoreOf(s), filters, "target_symbol", targetSymbol);
    assert GetOrders(s, targetSymbol, QNone, QNone, QNone, market)
           == Success(Query(StoreOf(s), filters["target_symbol" := targetSymbol]));
  }

  /** Falsy filters plus one key the repository does not read keep every stored order. */
  lemma FalsyWithUnreadKeepAll(st: Store, filters: QueryParams, key: string, v: QValue)
    requires key !in ReadKeys
    requires forall k :: k in filters ==> !Truthy(filters[k])
    ensures multiset(Query(st, filters[key := v])) == multiset(st.orders)
  {
    FalsyParamsKeepAll(st, filters);
    UnreadKeyIgnored(st, filters, key, v);
  }

  /** Without positions and with no status, type or side, every `get_orders` filter is falsy. */
  lemma NoFilterWithoutPositions(s: AppState, p: Portfolio)
    requires PositionIdsOf(s.positions, p) == []
    ensures forall k :: k in OrdersFilters(s, p, QNone, QNone, QNone) ==> !Truthy(OrdersFilters(s, p, QNone, QNone, QNone)[k])
  {
    var filters := OrdersFilters(s, p, QNone, QNone, QNone);
    assert filters.Keys == {"position", "status", "type", "side"};
    assert filters["position"] == QIds([]);
  }

  /** `Algorithm.get_positions`: the positions of the first portfolio in scope. */
  function GetPositions(s: AppState, market: Option<string> := None, identifier: Option<string> := None)
    : (r: Result<seq<Position>, Error>)
    ensures r.Failure? <==> forall p :: p in s.portfolios ==> !PortfolioInScope(p, market, identifier)
    ensures r.Failure? ==> r.error == ApiException(NoPortfolioMessage)
    ensures r.Success? ==> exists i :: IsFirstInScope(s.portfolios, market, identifier, i)
                                       && forall x :: x in r.value <==> x in s.positions && x.portfolioId == s.portfolios[i].id
    ensures r.Success? ==> exists i :: IsFirstInScope(s.portfolios, market, identifier, i)
                                       && r.value == PositionsOf(s.positions, s.portfolios[i])
  {
    var scoped := ScopedPortfolios(s.portfolios, market, identifier);
    if scoped == [] then Failure(ApiException(NoPortfolioMessage))
    else
      ScopedHeadIsFirst(s.portfolios, market, identifier);
      Success(PositionsOf(s.positions, scoped[0]))
  }

  /** `Algorithm.get_position`: the position in `symbol` of the first portfolio in scope. */
  function GetPosition(s: AppState, symbol: string, market: Option<string> := None, identifier: Option<string> := None)
    : (r: Result<Position, Error>)
    ensures r == Failure(ApiException(NoPortfolioMessage)) <==> forall p :: p in s.portfolios ==> !PortfolioInScope(p, market, identifier)
    ensures r == Failure(NotFound("position")) <==>
              exists i :: IsFirstInScope(s.portfolios, market, identifier, i) && !Holds(s.positions, s.portfolios[i], symbol)
    ensures r.Failure? ==> r.error in {ApiException(NoPortfolioMessage), NotFound("position")}
    ensures r.Success? ==> exists i :: IsFirstInScope(s.portfolios, market, identifier, i)
                                       && r.value in s.positions && r.value.portfolioId == s.portfolios[i].id
                                       && r.value.symbol == symbol
  {
    var scoped := ScopedPortfolios(s.portfolios, market, identifier);
    if scoped == [] then Failure(ApiException(NoPortfolioMessage))
    else
      ScopedHeadIsFirst(s.portfolios, market, identifier);
      ScopedHeadAtFirst(s.portfolios, market, identifier);
      FindPosition(s.positions, scoped[0], symbol)
  }

  /** `amount * price / allocated * 100`, with Python's `ZeroDivisionError` for a zero allocation. */
  function Percentage(amount: real, price: real, total: real): (r: Result<real, Error>)
    ensures r.Failure? <==> total == 0.0
    ensures r.Failure? ==> r.error == ZeroDivisionError
    ensures r.Success? ==> r.value * total == amount * price * 100.0
  {
    if total == 0.0 then Failure(ZeroDivisionError)
    else Success(amount * price / total * 100.0)
  }

  /**
    `Algorithm.get_position_percentage`: the position's value at the bid of
    `SYMBOL/TRADING` as a percentage of its portfolio's allocated value.
   */
  function GetPositionPercentage(s: AppState, symbol: string, market: Option<string> := None, identifier: Option<string> := None)
    : (r: Result<real, Error>)
    ensures r == Failure(ApiException(NoPortfolioMessage)) <==> forall p :: p in s.portfolios ==> !PortfolioInScope(p, market, identifier)
    ensures r == Failure(NotFound("position")) <==>
              exists i :: IsFirstInScope(s.portfolios, market, identifier, i) && !Holds(s.positions, s.portfolios[i], symbol)
    ensures r == Failure(ZeroDivisionError) <==>
              exists i :: && IsFirstInScope(s.portfolios, market, identifier, i) && Holds(s.positions, s.portfolios[i], symbol)
                          && GetAllocatedIntended(s, None, Some(s.portfolios[i].identifier)) == Success(0.0)
    ensures r.Success? <==>
              exists i :: && IsFirstInScope(s.portfolios, market, identifier, i) && Holds(s.positions, s.portfolios[i], symbol)
                          && GetAllocatedIntended(s, None, Some(s.portfolios[i].identifier)).Success?
                          && GetAllocatedIntended(s, None, Some(s.portfolios[i].identifier)).value != 0.0
    ensures r.Failure? && r.error !in {ApiException(NoPortfolioMessage), NotFound("position"), ZeroDivisionError} ==>
              exists i :: && IsFirstInScope(s.portfolios, market, identifier, i) && Holds(s.positions, s.portfolios[i], symbol)
                          && r == GetAllocatedIntended(s, None, Some(s.portfolios[i].identifier))
    ensures r.Success? ==> exists i, x ::
              && IsFirstInScope(s.portfolios, market, identifier, i)
              && x in s.positions && x.portfolioId == s.portfolios[i].id && x.symbol == symbol
              && GetAllocatedIntended(s, None, Some(s.portfolios[i].identifier)).Success?
              && r == Percentage(x.amount, s.bid(PairOf(symbol, s.portfolios[i].tradingSymbol)),
                                 GetAllocatedIntended(s, None, Some(s.portfolios[i].identifier)).value)
  {
    var scoped := ScopedPortfolios(s.portfolios, market, identifier);
    if scoped == [] then Failure(ApiException(NoPortfolioMessage))
    else
      ScopedHeadIsFirst(s.portfolios, market, identifier);
      ScopedHeadAtFirst(s.portfolios, market, identifier);
      var portfolio := scoped[0];
      var position :- FindPosition(s.positions, portfolio, symbol);
      var alloc :- GetAllocatedIntended(s, None, Some(portfolio.identifier));
      Percentage(position.amount, s.bid(PairOf(symbol, portfolio.tradingSymbol)), alloc)
  }

  /** No two stored portfolios share an identifier. */
  predicate UniqueIdentifiers(ps: seq<Portfolio>) {
    forall i, j :: 0 <= i < |ps| && 0 <= j < |ps| && ps[i].identifier == ps[j].identifier ==> i == j
  }

  /** A portfolio whose only holding is `x` is worth `x` at the bid. */
  lemma SoleHoldingValue(p: Portfolio, positions: seq<Position>, bid: string -> real, x: Position)
    requires x in Holdings(PositionsOf(positions, p), p.tradingSymbol)
    requires |Holdings(PositionsOf(positions, p), p.tradingSymbol)| <= 1
    ensures TotalValue(Holdings(PositionsOf(positions, p), p.tradingSymbol), p.tradingSymbol, bid)
            == PositionValue(x, p.tradingSymbol, bid)
  {
    SingleValue(Holdings(PositionsOf(positions, p), p.tradingSymbol), x, p.tradingSymbol, bid);
  }

  /** A position of the portfolio outside its trading symbol is one of its holdings. */
  lemma HeldBy(p: Portfolio, positions: seq<Position>, x: Position)
    requires x in positions && x.portfolioId == p.id && x.symbol != p.tradingSymbol
    ensures x in Holdings(PositionsOf(positions, p), p.tradingSymbol)
  {
    assert x in PositionsOf(positions, p);
  }

  /** The value of a sequence holding just `x` is the value of `x`. */
  lemma SingleValue(h: seq<Position>, x: Position, tradingSymbol: string, bid: string -> real)
    requires |h| <= 1 && x in h
    ensures TotalValue(h, tradingSymbol, bid) == PositionValue(x, tradingSymbol, bid)
  {
    assert h[..0] == [];
  }

  /** A position measured against its own value is 100% of it. */
  lemma WholeIsHundred(x: Position, tradingSymbol: string, bid: string -> real)
    requires Percentage(x.amount, bid(PairOf(x.symbol, tradingSymbol)), PositionValue(x, tradingSymbol, bid)).Success?
    ensures Percentage(x.amount, bid(PairOf(x.symbol, tradingSymbol)), PositionValue(x, tradingSymbol, bid)).value == 100.0
  {
    var a := PositionValue(x, tradingSymbol, bid);
    var r := Percentage(x.amount, bid(PairOf(x.symbol, tradingSymbol)), a).value;
    assert (r - 100.0) * a == 0.0;
  }

  /** With unique identifiers, the corrected valuation by identifier is that portfolio's own holdings. */
  lemma AllocationByIdentifier(s: AppState, i: int)
    requires UniqueIdentifiers(s.portfolios)
    requires 0 <= i < |s.portfolios|
    requires GetAllocatedIntended(s, None, Some(s.portfolios[i].identifier)).Success?
    ensures GetAllocatedIntended(s, None, Some(s.portfolios[i].identifier)).value
            == TotalValue(Holdings(PositionsOf(s.positions, s.portfolios[i]), s.portfolios[i].tradingSymbol),
                          s.portfolios[i].tradingSymbol, s.bid)
  {
    var p := s.portfolios[i];
    IntendedValuesOnePortfolio(s, None, Some(p.identifier));
    var c, p' :| && c in s.configurations && ConfigurationInScope(c, None, Some(p.identifier))
                 && p' in s.portfolios && p'.identifier == c.identifier
                 && GetAllocatedIntended(s, None, Some(p.identifier)).value
                    == TotalValue(Holdings(PositionsOf(s.positions, p'), p'.tradingSymbol), p'.tradingSymbol, s.bid);
    var k :| 0 <= k < |s.portfolios| && s.portfolios[k] == p';
  }

  /**
    The percentage is relative to the same valuation `get_allocated` makes:
    a position that is its portfolio's only holding is 100% of it.
   */
  lemma SoleHoldingIsWhole(s: AppState, symbol: string, market: Option<string>, identifier: Option<string>)
    requires UniqueIdentifiers(s.portfolios)
    requires forall p :: p in s.portfolios ==> p.tradingSymbol != symbol
                                               && |Holdings(PositionsOf(s.positions, p), p.tradingSymbol)| <= 1
    requires GetPositionPercentage(s, symbol, market, identifier).Success?
    ensures GetPositionPercentage(s, symbol, market, identifier).value == 100.0
  {
    var r := GetPositionPercentage(s, symbol, market, identifier);
    var i, x :| && IsFirstInScope(s.portfolios, market, identifier, i)
                && x in s.positions && x.portfolioId == s.portfolios[i].id && x.symbol == symbol
                && GetAllocatedIntended(s, None, Some(s.portfolios[i].identifier)).Success?
                && r == Percentage(x.amount, s.bid(PairOf(symbol, s.portfolios[i].tradingSymbol)),
                                   GetAllocatedIntended(s, None, Some(s.portfolios[i].identifier)).value);
    var p := s.portfolios[i];
    AllocationByIdentifier(s, i);
    assert p in s.portfolios;
    HeldBy(p, s.positions, x);
    SoleHoldingValue(p, s.positions, s.bid, x);
    WholeIsHundred(x, p.tradingSymbol, s.bid);
  }

  /** `Algorithm.get_portfolio`: the market branch builds an unhashable query and raises `TypeError`. */
  function GetPortfolio(s: AppState, market: Option<string> := None): (r: Result<Portfolio, Error>)
    ensures market.Some? ==> r == Failure(TypeError)
    ensures market.None? ==> (r.Success? <==> s.portfolios != [])
    ensures market.None? && r.Success? ==> r.value == s.portfolios[0]
    ensures market.None? && r.Failure? ==> r.error == NotFound("portfolio")
  {
    if market.None? then FindPortfolio(s.portfolios, None, None)
    else Failure(TypeError)
  }

  /**
    `Algorithm.get_unallocated`: the amount of the first portfolio's position
    in its own trading symbol; a non-empty market raises `TypeError`.
   */
  function GetUnallocated(s: AppState, market: Option<string> := None): (r: Result<real, Error>)
    ensures MarketGiven(market) ==> r == Failure(TypeError)
    ensures !MarketGiven(market) && s.portfolios == [] ==> r == Failure(NotFound("portfolio"))
    ensures !MarketGiven(market) && s.portfolios != [] ==>
              (r == Failure(NotFound("position")) <==> !Holds(s.positions, s.portfolios[0], s.portfolios[0].tradingSymbol))
    ensures r.Failure? ==> r.error in {TypeError, NotFound("portfolio"), NotFound("position")}
    ensures r.Success? ==> exists x :: x in s.positions && x.portfolioId == s.portfolios[0].id
                                       && x.symbol == s.portfolios[0].tradingSymbol && r.value == x.amount
  {
    if MarketGiven(market) then Failure(TypeError)
    else
      var portfolio :- FindPortfolio(s.portfolios, None, None);
      assert portfolio == s.portfolios[0] by {
        assert PortfolioInScope(s.portfolios[0], None, None);
      }
      var position :- FindPosition(s.positions, portfolio, portfolio.tradingSymbol);
      Success(position.amount)
  }
}

=== FILE: domain.dfy ===
/** The trading entities the facade and the order repository work on. */
module Domain {
  import opened Wrappers

  datatype OrderSide = BUY | SELL
  datatype OrderType = LIMIT | MARKET
  datatype OrderStatus = PENDING | OPEN | CLOSED | CANCELED | EXPIRED | REJECTED

  /** The stored `.value` strings of the enumerations. */
  function SideValue(side: OrderSide): string {
    match side
    case BUY => "BUY"
    case SELL => "SELL"
  }

  function TypeValue(t: OrderType): string {
    match t
    case LIMIT => "LIMIT"
    case MARKET => "MARKET"
  }

  function StatusValue(status: OrderStatus): string {
    match status
    case PENDING => "PENDING"
    case OPEN => "OPEN"
    case CLOSED => "CLOSED"
    case CANCELED => "CANCELED"
    case EXPIRED => "EXPIRED"
    case REJECTED => "REJECTED"
  }

  /** A stored order row; nullable columns are options. */
  datatype Order = Order(
    id: int,
    externalId: Option<string>,
    positionId: int,
    targetSymbol: string,
    tradingSymbol: string,
    side: OrderSide,
    orderType: OrderType,
    status: OrderStatus,
    price: Option<real>,
    amountTargetSymbol: Option<real>,
    amountTradingSymbol: Option<real>,
    createdAt: int)

  /** A holding of one symbol inside one portfolio. */
  datatype Position = Position(id: int, portfolioId: int, symbol: string, amount: real)

  datatype Portfolio = Portfolio(id: int, identifier: string, market: string, tradingSymbol: string)

  datatype PortfolioConfiguration = PortfolioConfiguration(identifier: string, market: string, tradingSymbol: string)
}

=== FILE: domain_config.dfy ===
/**
  The domain `Config`: a `dict` subclass whose entries start out as the
  upper-case class attributes and are read and written as dictionary items.
 */
module DomainConfig {
  import opened Wrappers
  import opened PyValues
  import Environments

  /** What the class body reads from the host: `os.path` results and one `os.getenv`. */
  datatype Host = Host(appDir: string, projectRoot: string, resourceDirectory: Value)

  type Config = map<string, Value>

  const CorsOriginWhitelist: seq<Value> := [
    StrValue("http://0.0.0.0:4100"),
    StrValue("http://localhost:4100"),
    StrValue("http://0.0.0.0:8000"),
    StrValue("http://localhost:8000"),
    StrValue("http://0.0.0.0:4200"),
    StrValue("http://localhost:4200"),
    StrValue("http://0.0.0.0:4000"),
    StrValue("http://localhost:4000")
  ]

  /** The configuration classes of the domain module. */
  datatype ConfigClass = BaseConfig | TestConfig | DevConfig

  /** The environment each class declares. */
  function EnvironmentOf(cls: ConfigClass): Environments.Environment {
    match cls
    case BaseConfig => Environments.PROD
    case TestConfig => Environments.TEST
    case DevConfig => Environments.DEV
  }

  /** The `ENVIRONMENT` attribute each class declares: its environment's value string. */
  function EnvironmentValue(cls: ConfigClass): Value {
    StrValue(Environments.ValueOf(EnvironmentOf(cls)))
  }

  /** The settings `Config` declares as constants. */
  function ConstantSettings(): (r: Config)
    ensures "ENVIRONMENT" in r && r["ENVIRONMENT"] == EnvironmentValue(BaseConfig)
    ensures "LOG_LEVEL" in r && r["LOG_LEVEL"] == StrValue("DEBUG")
    ensures "SQLITE_ENABLED" in r && r["SQLITE_ENABLED"] == BoolValue(true)
    ensures "TESTING" !in r && "RESOURCE_DIRECTORY" !in r
  {
    map[
      "LOG_LEVEL" := StrValue("DEBUG"),
      "DEBUG_TB_INTERCEPT_REDIRECTS" := BoolValue(false),
      "SQLALCHEMY_TRACK_MODIFICATIONS" := BoolValue(false),
      "CACHE_TYPE" := StrValue("simple"),
      "CORS_ORIGIN_WHITELIST" := ListValue(CorsOriginWhitelist),
      "SCHEDULER_API_ENABLED" := BoolValue(true),
      "CHECK_PENDING_ORDERS" := BoolValue(true),
      "SQLITE_ENABLED" := BoolValue(true),
      "SQLITE_INITIALIZED" := BoolValue(false),
      "BACKTEST_DATA_DIRECTORY_NAME" := StrValue("backtest_data"),
      "ENVIRONMENT" := EnvironmentValue(BaseConfig)
    ]
  }

  /** The settings `Config` reads from the host when the class body runs. */
  function HostSettings(host: Host): (r: Config)
    ensures r.Keys == {"APP_DIR", "PROJECT_ROOT", "RESOURCE_DIRECTORY"}
    ensures r["RESOURCE_DIRECTORY"] == host.resourceDirectory
  {
    map[
      "APP_DIR" := StrValue(host.appDir),
      "PROJECT_ROOT" := StrValue(host.projectRoot),
      "RESOURCE_DIRECTORY" := host.resourceDirectory
    ]
  }

  /** The upper-case attributes declared in the body of `Config`. */
  function DeclaredSettings(host: Host): (r: Config)
    ensures "ENVIRONMENT" in r && r["ENVIRONMENT"] == EnvironmentValue(BaseConfig)
    ensures "RESOURCE_DIRECTORY" in r && r["RESOURCE_DIRECTORY"] == host.resourceDirectory
    ensures "LOG_LEVEL" in r && r["LOG_LEVEL"] == StrValue("DEBUG")
    ensures "SQLITE_ENABLED" in r && r["SQLITE_ENABLED"] == BoolValue(true)
    ensures "TESTING" !in r
  {
    ConstantSettings() + HostSettings(host)
  }

  /** The methods `Config` defines besides its dunder methods. */
  const MethodNames: set<string> := {"get", "set", "from_dict"}

  /** `vars(Config)` without its dunder entries: the declared settings and the methods. */
  function BaseClassVars(host: Host): (r: Config)
    ensures "ENVIRONMENT" in r && r["ENVIRONMENT"] == EnvironmentValue(BaseConfig)
    ensures r.Keys == DeclaredSettings(host).Keys + MethodNames
    ensures forall k :: k in DeclaredSettings(host) ==> r[k] == DeclaredSettings(host)[k]
    ensures forall k :: k in r && k !in DeclaredSettings(host) ==> r[k] == MethodValue(k)
  {
    map["get" := MethodValue("get"), "set" := MethodValue("set"), "from_dict" := MethodValue("from_dict")]
      + DeclaredSettings(host)
  }

  /** The attributes `TestConfig` declares. */
  const TestConfigKeys: set<string> := {"ENVIRONMENT", "TESTING", "DATABASE_CONFIG", "LOG_LEVEL"}

  /** The attributes `DevConfig` declares. */
  const DevConfigKeys: set<string> := {"ENVIRONMENT", "DATABASE_CONFIG", "LOG_LEVEL"}

  /** A `DATABASE_CONFIG` naming one database. */
  function DatabaseConfig(name: string): Value {
    DictValue(map["DATABASE_NAME" := StrValue(name)])
  }

  /** `vars(TestConfig)` without its dunder entries: only what `TestConfig` declares. */
  function TestClassVars(): (r: Config)
    ensures "ENVIRONMENT" in r && r["ENVIRONMENT"] == EnvironmentValue(TestConfig)
    ensures r.Keys == TestConfigKeys
    ensures r["TESTING"] == BoolValue(true) && r["LOG_LEVEL"] == StrValue("INFO")
    ensures r["DATABASE_CONFIG"] == DatabaseConfig("test")
  {
    map[
      "ENVIRONMENT" := EnvironmentValue(TestConfig),
      "TESTING" := BoolValue(true),
      "DATABASE_CONFIG" := DatabaseConfig("test"),
      "LOG_LEVEL" := StrValue("INFO")
    ]
  }

  /** `vars(DevConfig)` without its dunder entries: only what `DevConfig` declares. */
  function DevClassVars(): (r: Config)
    ensures "ENVIRONMENT" in r && r["ENVIRONMENT"] == EnvironmentValue(DevConfig)
    ensures r.Keys == DevConfigKeys
    ensures r["LOG_LEVEL"] == StrValue("INFO") && r["DATABASE_CONFIG"] == DatabaseConfig("dev")
  {
    map[
      "ENVIRONMENT" := EnvironmentValue(DevConfig),
      "DATABASE_CONFIG" := DatabaseConfig("dev"),
      "LOG_LEVEL" := StrValue("INFO")
    ]
  }

  /**
    `vars(cls)` without its dunder entries: for `Config` its declared
    settings and its methods; for a subclass only what that subclass declares.
   */
  function ClassVars(cls: ConfigClass, host: Host): (r: Config)
    ensures "ENVIRONMENT" in r && r["ENVIRONMENT"] == EnvironmentValue(cls)
    ensures cls.BaseConfig? ==> r.Keys == DeclaredSettings(host).Keys + MethodNames
    ensures cls.BaseConfig? ==> forall k :: k in DeclaredSettings(host) ==> r[k] == DeclaredSettings(host)[k]
    ensures cls.TestConfig? ==> r.Keys == TestConfigKeys
    ensures cls.TestConfig? ==> r["TESTING"] == BoolValue(true) && r["DATABASE_CONFIG"] == DatabaseConfig("test")
    ensures cls.DevConfig? ==> r.Keys == DevConfigKeys
    ensures cls.DevConfig? ==> r["DATABASE_CONFIG"] == DatabaseConfig("dev")
    ensures !cls.BaseConfig? ==> r["LOG_LEVEL"] == StrValue("INFO")
  {
    match cls
    case BaseConfig => BaseClassVars(host)
    case TestConfig => TestClassVars()
    case DevConfig => DevClassVars()
  }

  /**
    `cls(resource_directory)`. The argument only becomes an instance
    attribute: the dictionary is filled from `vars(cls)` afterwards, so the
    items never hold it, and a subclass's items lack every base attribute.
   */
  function NewConfig(cls: ConfigClass, host: Host, resourceDirectory: Option<Value>): (c: Config)
    ensures c.Keys == ClassVars(cls, host).Keys
    ensures forall k :: k in c ==> c[k] == ClassVars(cls, host)[k]
    ensures "ENVIRONMENT" in c && c["ENVIRONMENT"] == EnvironmentValue(cls)
    ensures cls.BaseConfig? ==> "RESOURCE_DIRECTORY" in c && c["RESOURCE_DIRECTORY"] == host.resourceDirectory
    ensures !cls.BaseConfig? ==> "RESOURCE_DIRECTORY" !in c
    ensures cls.BaseConfig? ==> "LOG_LEVEL" in c && c["LOG_LEVEL"] == StrValue("DEBUG")
    ensures !cls.BaseConfig? ==> "LOG_LEVEL" in c && c["LOG_LEVEL"] == StrValue("INFO")
  {
    ClassVars(cls, host)
  }

  /** A fresh configuration's `ENVIRONMENT` item parses back to its class's environment. */
  lemma NewConfigEnvironment(cls: ConfigClass, host: Host, resourceDirectory: Option<Value>)
    ensures Environments.FromString(NewConfig(cls, host, resourceDirectory)["ENVIRONMENT"]) == Success(EnvironmentOf(cls))
  {
    Environments.FromStringRoundTrip(EnvironmentOf(cls));
  }

  /**
    A subclass's items are only its own attributes: `get` of a base setting
    such as `SQLITE_ENABLED` finds it on a `Config()` but falls back to the
    default on a `TestConfig()` or `DevConfig()`.
   */
  lemma SubclassItemsOwnOnly(cls: ConfigClass, host: Host, resourceDirectory: Option<Value>, default: Value)
    ensures Get(NewConfig(BaseConfig, host, resourceDirectory), "SQLITE_ENABLED", default) == BoolValue(true)
    ensures !cls.BaseConfig? ==> Get(NewConfig(cls, host, resourceDirectory), "SQLITE_ENABLED", default) == default
  {
    assert NewConfig(BaseConfig, host, resourceDirectory)["SQLITE_ENABLED"] == DeclaredSettings(host)["SQLITE_ENABLED"];
    if !cls.BaseConfig? {
      assert "SQLITE_ENABLED" !in TestConfigKeys && "SQLITE_ENABLED" !in DevConfigKeys;
    }
  }

  /**
    Only a `TestConfig()` carries the `TESTING` flag, and every subclass
    instance carries its own `DATABASE_CONFIG` and none of the methods.
   */
  lemma OnlyTestConfigIsTesting(cls: ConfigClass, host: Host, resourceDirectory: Option<Value>)
    ensures cls.TestConfig? <==> "TESTING" in NewConfig(cls, host, resourceDirectory)
    ensures !cls.BaseConfig? ==> "DATABASE_CONFIG" in NewConfig(cls, host, resourceDirectory)
    ensures !cls.BaseConfig? ==> forall k :: k in MethodNames ==> k !in NewConfig(cls, host, resourceDirectory)
  {
    NewConfigKeys(cls, host, resourceDirectory);
    match cls
    case BaseConfig =>
      assert "TESTING" !in DeclaredSettings(host) && "TESTING" !in MethodNames;
    case TestConfig =>
      SubclassKeys();
    case DevConfig =>
      SubclassKeys();
  }

  /** What the subclasses' key sets hold: `TESTING` only for `TestConfig`, a database for both, no method. */
  lemma SubclassKeys()
    ensures "TESTING" in TestConfigKeys && "TESTING" !in DevConfigKeys
    ensures "DATABASE_CONFIG" in TestConfigKeys && "DATABASE_CONFIG" in DevConfigKeys
    ensures forall k :: k in MethodNames ==> k !in TestConfigKeys && k !in DevConfigKeys
  {
  }

  /** The keys of a fresh configuration, class by class. */
  lemma NewConfigKeys(cls: ConfigClass, host: Host, resourceDirectory: Option<Value>)
    ensures NewConfig(cls, host, resourceDirectory).Keys
            == match cls
               case BaseConfig => DeclaredSettings(host).Keys + MethodNames
               case TestConfig => TestConfigKeys
               case DevConfig => DevConfigKeys
  {
  }

  /** `Config.get`: the stored item when the key is present, the default otherwise. */
  function Get(c: Config, key: string, default: Value := NoneValue): (r: Value)
    ensures key in c ==> r == c[key]
    ensures key !in c ==> r == default
  {
    if key in c then c[key] else default
  }

  /** `Config.set`: stores one item and leaves every other key as it was. */
  function Set(c: Config, key: string, value: Value): (r: Config)
    ensures r.Keys == c.Keys + {key}
    ensures r[key] == value
    ensures forall k :: k in c && k != key ==> r[k] == c[k]
  {
    c[key := value]
  }

  /** After `set(k, v)`, `get(k)` is `v` whatever the default, and other keys read as before. */
  lemma SetThenGet(c: Config, key: string, value: Value, other: string, default: Value)
    ensures Get(Set(c, key, value), key, default) == value
    ensures other != key ==> Get(Set(c, key, value), other, default) == Get(c, other, default)
  {
  }

  /**
    `Config.from_dict`: starts from a fresh `Config()` and copies every
    truthy (non-empty) key of the dictionary, in iteration order.
   */
  method FromDict(host: Host, dictionary: map<string, Value>) returns (c: Config)
    ensures c.Keys == ClassVars(BaseConfig, host).Keys + (dictionary.Keys - {""})
    ensures forall k :: k in dictionary && k != "" ==> c[k] == dictionary[k]
    ensures forall k :: k in c && (k !in dictionary || k == "") ==> c[k] == ClassVars(BaseConfig, host)[k]
  {
    c := NewConfig(BaseConfig, host, None);
    c := CopyItems(c, dictionary);
  }

  /** The loop of `from_dict`: `set` and then store each non-empty key of the dictionary. */
  method CopyItems(start: Config, dictionary: map<string, Value>) returns (c: Config)
    ensures c.Keys == start.Keys + (dictionary.Keys - {""})
    ensures forall k :: k in dictionary && k != "" ==> c[k] == dictionary[k]
    ensures forall k :: k in c && (k !in dictionary || k == "") ==> c[k] == start[k]
  {
    c := start;
    var pending := dictionary.Keys;
    while pending != {}
      invariant pending <= dictionary.Keys
      invariant c.Keys == start.Keys + ((dictionary.Keys - pending) - {""})
      invariant forall k :: k in dictionary && k !in pending && k != "" ==> c[k] == dictionary[k]
      invariant forall k :: k in c && (k !in dictionary || k in pending || k == "") ==> c[k] == start[k]
      decreases pending
    {
      var key :| key in pending;
      if key != "" {
        c := Set(c, key, dictionary[key]);
        c := c[key := dictionary[key]];
      }
      pending := pending - {key};
    }
  }
}

=== FILE: environment.dfy ===
/**
  The `Environment` enumeration and its case-insensitive parsing.
  The repository carries two textually identical copies of it (one in the
  domain configuration, one in the legacy settings); this module models both.
 */
module Environments {
  import opened Wrappers
  import opened Text
  import opened PyValues

  datatype Environment = DEV | PROD | TEST

  /** The `.value` string of each member. */
  function ValueOf(e: Environment): string {
    match e
    case DEV => "DEV"
    case PROD => "PROD"
    case TEST => "TEST"
  }

  /** Members in declaration order, as `for entry in Environment` visits them. */
  const Members: seq<Environment> := [DEV, PROD, TEST]

  const UnknownMessage := "Could not convert value to a environment type"
  const NonStringMessage := "Could not convert non string value to a environment type"

  datatype ConversionError = OperationalException(message: string)

  /** First member of `members` whose value equals `upper`, if any. */
  function FirstMatching(members: seq<Environment>, upper: string): (r: Option<Environment>)
    ensures r.Some? ==> r.value in members && ValueOf(r.value) == upper
    ensures r.None? <==> forall e :: e in members ==> ValueOf(e) != upper
  {
    if members == [] then None
    else if upper == ValueOf(members[0]) then Some(members[0])
    else FirstMatching(members[1..], upper)
  }

  /** `Environment.from_string`: a string parses to the member whose value is its upper-case form. */
  function FromString(v: Value): (r: Result<Environment, ConversionError>)
    ensures v.StrValue? ==>
              forall e :: r == Success(e) <==> Upper(v.s) == ValueOf(e)
    ensures v.StrValue? && r.Failure? ==> r.error == OperationalException(UnknownMessage)
    ensures !v.StrValue? ==> r == Failure(OperationalException(NonStringMessage))
  {
    if v.StrValue? then
      match FirstMatching(Members, Upper(v.s))
      case Some(e) => Success(e)
      case None => Failure(OperationalException(UnknownMessage))
    else
      Failure(OperationalException(NonStringMessage))
  }

  /** `Environment.equals`: enum members compare by value, anything else goes through `from_string`. */
  function Equals(self: Environment, other: Value): (r: bool)
    ensures other.EnumValue? ==> (r <==> other.member == StrValue(ValueOf(self)))
    ensures other.StrValue? ==> (r <==> Upper(other.s) == ValueOf(self))
    ensures !other.EnumValue? && !other.StrValue? ==> !r
  {
    if other.EnumValue? then
      StrValue(ValueOf(self)) == other.member
    else
      match FromString(other)
      case Success(parsed) => parsed == self
      case Failure(_) => other == StrValue(ValueOf(self))
  }

  /** Every member parses back from its own value, in upper or lower case. */
  lemma FromStringRoundTrip(e: Environment)
    ensures FromString(StrValue(ValueOf(e))) == Success(e)
    ensures FromString(StrValue(Lower(ValueOf(e)))) == Success(e)
  {
    UpperFixesNoLowerCase(ValueOf(e));
    LowerOfUpper(ValueOf(e));
    UpperOfLower(ValueOf(e));
  }

  /** Parsing ignores the case the argument was written in. */
  lemma FromStringCaseInsensitive(s: string, t: string)
    requires Upper(s) == Upper(t)
    ensures FromString(StrValue(s)) == FromString(StrValue(t))
  {
  }

  /** `equals` against a member's own value, or against the member itself, holds exactly for that member. */
  lemma EqualsOwnValue(self: Environment, e: Environment)
    ensures Equals(self, StrValue(ValueOf(e))) <==> self == e
    ensures Equals(self, EnumValue("Environment", StrValue(ValueOf(e)))) <==> self == e
  {
    UpperFixesNoLowerCase(ValueOf(e));
  }
}

=== FILE: legacy_settings.dfy ===
/**
  The legacy settings `Config`: a `dict` subclass that mirrors every item
  as an attribute, reads items through attribute lookup (missing reads as
  `None`) and answers `in` from the stored dictionary value.
 */
module LegacySettings {
  import opened Wrappers
  import opened Text
  import opened PyValues

  /** What the class body reads from the host: `os.path` results and `os.getenv` values. */
  datatype Host = Host(appDir: string, projectRoot: string, resourcesDirectory: Value, databaseConfig: Value)

  /**
    A configuration object: the attributes its class provides, the attributes
    set on the instance, and the items stored in the underlying dictionary.
   */
  datatype LegacyConfig = LegacyConfig(
    classAttributes: map<string, Value>,
    instanceAttributes: map<string, Value>,
    entries: map<string, Value>)

  datatype LookupError = KeyError(key: string)

  /** Items written through `__setitem__` are also instance attributes holding the same value. */
  predicate Coherent(c: LegacyConfig) {
    forall k :: k in c.entries ==> k in c.instanceAttributes && c.instanceAttributes[k] == c.entries[k]
  }

  /** Attributes declared in the body of the base `Config` class. */
  function BaseAttributes(host: Host): map<string, Value> {
    map[
      "ENV" := StrValue("DEV"),
      "LOG_LEVEL" := StrValue("INFO"),
      "APP_DIR" := StrValue(host.appDir),
      "PROJECT_ROOT" := StrValue(host.projectRoot),
      "DEBUG_TB_INTERCEPT_REDIRECTS" := BoolValue(false),
      "SQLALCHEMY_TRACK_MODIFICATIONS" := BoolValue(false),
      "CACHE_TYPE" := StrValue("simple"),
      "CORS_ORIGIN_WHITELIST" := ListValue([
        StrValue("http://0.0.0.0:4100"),
        StrValue("http://localhost:4100"),
        StrValue("http://0.0.0.0:8000"),
        StrValue("http://localhost:8000"),
        StrValue("http://0.0.0.0:4200"),
        StrValue("http://localhost:4200"),
        StrValue("http://0.0.0.0:4000"),
        StrValue("http://localhost:4000")]),
      "RESOURCES_DIRECTORY" := host.resourcesDirectory,
      "DATABASE_CONFIG" := host.databaseConfig
    ]
  }

  /** Attribute lookup that yields `None` instead of raising. */
  function AttributeOf(c: LegacyConfig, key: string): (r: Value)
    ensures key in c.instanceAttributes ==> r == c.instanceAttributes[key]
    ensures key !in c.instanceAttributes && key in c.classAttributes ==> r == c.classAttributes[key]
    ensures key !in c.instanceAttributes && key !in c.classAttributes ==> r == NoneValue
  {
    if key in c.instanceAttributes then c.instanceAttributes[key]
    else if key in c.classAttributes then c.classAttributes[key]
    else NoneValue
  }

  /** `config[key]`: reads the attribute, so a key never set reads as `None` instead of failing. */
  function GetItem(c: LegacyConfig, key: string): (r: Value)
    ensures Coherent(c) && key in c.entries ==> r == c.entries[key]
    ensures key !in c.instanceAttributes && key !in c.classAttributes ==> r == NoneValue
  {
    AttributeOf(c, key)
  }

  /** `config[key] = value`: sets both the attribute and the dictionary item. */
  function SetItem(c: LegacyConfig, key: string, value: Value): (r: LegacyConfig)
    ensures Coherent(c) ==> Coherent(r)
    ensures GetItem(r, key) == value
    ensures key in r.entries && r.entries[key] == value
    ensures forall k :: k != key ==> GetItem(r, k) == GetItem(c, k)
    ensures r.entries.Keys == c.entries.Keys + {key}
  {
    c.(instanceAttributes := c.instanceAttributes[key := value], entries := c.entries[key := value])
  }

  /** `key in config`: reads the dictionary item directly, so a key never stored raises `KeyError`. */
  function Contains(c: LegacyConfig, key: string): (r: Result<bool, LookupError>)
    ensures r.Success? <==> key in c.entries
    ensures r.Success? ==> (r.value <==> c.entries[key] != NoneValue)
    ensures r.Failure? ==> r.error == KeyError(key)
  {
    if key in c.entries then Success(c.entries[key] != NoneValue) else Failure(KeyError(key))
  }

  /**
    `Config()` for a class whose resolved attributes are `classAttributes`:
    every upper-case name listed by `dir(Config)` is stored with the value
    attribute lookup finds for it.
   */
  function Init(dirNames: set<string>, classAttributes: map<string, Value>): (c: LegacyConfig)
    ensures Coherent(c)
    ensures c.entries.Keys == set k | k in dirNames && IsUpper(k)
    ensures forall k :: k in c.entries ==> c.entries[k] == (if k in classAttributes then classAttributes[k] else NoneValue)
  {
    var registered := map k | k in dirNames && IsUpper(k) :: if k in classAttributes then classAttributes[k] else NoneValue;
    LegacyConfig(classAttributes, registered, registered)
  }

  /** Attributes `TestConfig` adds to or overrides in the base class. */
  function TestConfigAttributes(host: Host): map<string, Value> {
    BaseAttributes(host)["ENV" := StrValue("TEST")]["TESTING" := BoolValue(true)]
      ["DATABASE_CONFIG" := DictValue(map["DATABASE_NAME" := StrValue("test")])]
  }

  /** A name that starts with an upper-case letter and has no lower-case one is upper-case. */
  lemma UpperCaseName(s: string)
    requires |s| > 0 && IsUpperChar(s[0]) && NoLowerCase(s)
    ensures IsUpper(s)
  {
  }

  /** The attribute names the base class declares are upper-case in the sense of `str.isupper`. */
  lemma ShortNamesUpper()
    ensures IsUpper("ENV")
    ensures IsUpper("LOG_LEVEL")
    ensures IsUpper("APP_DIR")
    ensures IsUpper("PROJECT_ROOT")
    ensures IsUpper("CACHE_TYPE")
  {
    UpperCaseName("ENV");
    UpperCaseName("LOG_LEVEL");
    UpperCaseName("APP_DIR");
    UpperCaseName("PROJECT_ROOT");
    UpperCaseName("CACHE_TYPE");
  }

  lemma FlagNamesUpper()
    ensures IsUpper("DEBUG_TB_INTERCEPT_REDIRECTS")
    ensures IsUpper("SQLALCHEMY_TRACK_MODIFICATIONS")
  {
    UpperCaseName("DEBUG_TB_INTERCEPT_REDIRECTS");
    UpperCaseName("SQLALCHEMY_TRACK_MODIFICATIONS");
  }

  lemma PathNamesUpper()
    ensures IsUpper("CORS_ORIGIN_WHITELIST")
    ensures IsUpper("RESOURCES_DIRECTORY")
    ensures IsUpper("DATABASE_CONFIG")
  {
    UpperCaseName("CORS_ORIGIN_WHITELIST");
    UpperCaseName("RESOURCES_DIRECTORY");
    UpperCaseName("DATABASE_CONFIG");
  }

  lemma BaseNamesUpper(host: Host)
    ensures forall k :: k in BaseAttributes(host) ==> IsUpper(k)
  {
    ShortNamesUpper();
    FlagNamesUpper();
    PathNamesUpper();
    assert BaseAttributes(host).Keys == {"ENV", "LOG_LEVEL", "APP_DIR", "PROJECT_ROOT", "DEBUG_TB_INTERCEPT_REDIRECTS",
                         "SQLALCHEMY_TRACK_MODIFICATIONS", "CACHE_TYPE", "CORS_ORIGIN_WHITELIST",
                         "RESOURCES_DIRECTORY", "DATABASE_CONFIG"};
  }

  /**
    Construction registers exactly the upper-case names `dir(Config)` lists,
    each with the value attribute lookup finds: when the declared attributes
    are all upper-case and the inherited names none, the items are the
    declared attributes.
   */
  lemma Registration(declared: map<string, Value>, inherited: set<string>)
    requires forall k :: k in declared ==> IsUpper(k)
    requires forall n :: n in inherited ==> !IsUpper(n)
    ensures Init(declared.Keys + inherited, declared).entries == declared
  {
    var c := Init(declared.Keys + inherited, declared);
    forall k | k in c.entries
      ensures k in declared
    {
      assert k in declared.Keys + inherited && IsUpper(k);
    }
    assert c.entries.Keys == declared.Keys;
  }

  /**
    Construction of the base class registers exactly its declared attributes;
    `SCHEDULER_API_ENABLED`, only annotated in the class body, is absent,
    so it reads as `None` and makes `in` raise.
   */
  lemma BaseRegistration(host: Host, inherited: set<string>)
    requires forall n :: n in inherited ==> !IsUpper(n)
    requires "SCHEDULER_API_ENABLED" !in inherited
    ensures Init(BaseAttributes(host).Keys + inherited, BaseAttributes(host)).entries == BaseAttributes(host)
    ensures GetItem(Init(BaseAttributes(host).Keys + inherited, BaseAttributes(host)), "SCHEDULER_API_ENABLED") == NoneValue
    ensures Contains(Init(BaseAttributes(host).Keys + inherited, BaseAttributes(host)), "SCHEDULER_API_ENABLED")
            == Failure(KeyError("SCHEDULER_API_ENABLED"))
  {
    BaseNamesUpper(host);
    Registration(BaseAttributes(host), inherited);
  }

  /**
    A subclass attribute that the base class does not declare (`TESTING`)
    is readable as `config["TESTING"]` but never registered, because
    registration lists the names of the base class only.
   */
  lemma SubclassOnlyAttribute(host: Host, inherited: set<string>)
    requires forall n :: n in inherited ==> !IsUpper(n)
    requires "TESTING" !in inherited
    ensures GetItem(Init(BaseAttributes(host).Keys + inherited, TestConfigAttributes(host)), "TESTING") == BoolValue(true)
    ensures Contains(Init(BaseAttributes(host).Keys + inherited, TestConfigAttributes(host)), "TESTING")
            == Failure(KeyError("TESTING"))
    ensures GetItem(Init(BaseAttributes(host).Keys + inherited, TestConfigAttributes(host)), "ENV") == StrValue("TEST")
  {
    var c := Init(BaseAttributes(host).Keys + inherited, TestConfigAttributes(host));
    UpperCaseName("ENV");
    assert "ENV" in c.entries;
    assert "TESTING" !in c.entries;
  }
}

=== FILE: market_credentials.dfy ===
/** Market credential lookup of the market service: first credential whose market matches, ignoring case. */
module MarketCredentials {
  import opened Wrappers
  import opened Text

  datatype MarketCredential = MarketCredential(market: string, apiKey: string, secretKey: string)

  /**
    The market credential service a market service is built with: absent, or
    one whose `get_all()` returns the stored credentials in order.
   */
  type CredentialService = Option<seq<MarketCredential>>

  datatype ServiceError = AttributeError

  /** Two market names denote the same market when their lower-case forms agree. */
  predicate SameMarket(a: string, b: string) {
    Lower(a) == Lower(b)
  }

  /** `market_credentials`: the stored credentials, or none at all without a service. */
  function Credentials(service: CredentialService): (r: seq<MarketCredential>)
    ensures service.None? ==> r == []
    ensures service.Some? ==> r == service.value
  {
    match service
    case None => []
    case Some(all) => all
  }

  /** `get_market_credentials()`: reads the service directly, so without one it raises. */
  function AllCredentials(service: CredentialService): (r: Result<seq<MarketCredential>, ServiceError>)
    ensures r.Success? <==> service.Some?
    ensures r.Success? ==> r.value == Credentials(service)
  {
    match service
    case None => Failure(AttributeError)
    case Some(all) => Success(all)
  }

  /** First credential in `credentials` for `market`, ignoring case. */
  function FirstFor(credentials: seq<MarketCredential>, market: string): (r: Option<MarketCredential>)
    ensures r.Some? ==> r.value in credentials && SameMarket(r.value.market, market)
    ensures r.None? <==> forall c :: c in credentials ==> !SameMarket(c.market, market)
  {
    if credentials == [] then None
    else if Lower(credentials[0].market) == Lower(market) then Some(credentials[0])
    else FirstFor(credentials[1..], market)
  }

  /** Index-based reading of "the first match": every earlier credential is for another market. */
  predicate IsFirstFor(credentials: seq<MarketCredential>, market: string, i: int) {
    0 <= i < |credentials| && SameMarket(credentials[i].market, market)
    && forall j :: 0 <= j < i ==> !SameMarket(credentials[j].market, market)
  }

  /** `get_market_credential(market)`. */
  function GetMarketCredential(service: CredentialService, market: string): (r: Option<MarketCredential>)
    ensures r.None? <==> forall c :: c in Credentials(service) ==> !SameMarket(c.market, market)
    ensures service.None? ==> r.None?
  {
    FirstFor(Credentials(service), market)
  }

  /** The lookup returns exactly the credential at the first matching position. */
  lemma {:induction false} FirstForIsFirst(credentials: seq<MarketCredential>, market: string)
    ensures FirstFor(credentials, market).Some? <==> exists i :: IsFirstFor(credentials, market, i)
    ensures forall i :: IsFirstFor(credentials, market, i) ==> FirstFor(credentials, market) == Some(credentials[i])
    decreases |credentials|
  {
    if credentials == [] {
    } else if SameMarket(credentials[0].market, market) {
      assert IsFirstFor(credentials, market, 0);
      forall i | IsFirstFor(credentials, market, i)
        ensures i == 0
      {
      }
    } else {
      var rest := credentials[1..];
      FirstForIsFirst(rest, market);
      forall i | IsFirstFor(credentials, market, i)
        ensures IsFirstFor(rest, market, i - 1)
      {
        assert i != 0;
        forall j | 0 <= j < i - 1
          ensures !SameMarket(rest[j].market, market)
        {
          assert rest[j] == credentials[j + 1];
        }
      }
      if FirstFor(rest, market).Some? {
        var k :| IsFirstFor(rest, market, k);
        assert IsFirstFor(credentials, market, k + 1) by {
          forall j | 0 <= j < k + 1
            ensures !SameMarket(credentials[j].market, market)
          {
            if j > 0 {
              assert credentials[j] == rest[j - 1];
            }
          }
        }
      }
    }
  }

  /** The lookup does not depend on the case the queried market is written in. */
  lemma QueryCaseInsensitive(service: CredentialService, market: string)
    ensures GetMarketCredential(service, market) == GetMarketCredential(service, Upper(market))
    ensures GetMarketCredential(service, market) == GetMarketCredential(service, Lower(market))
  {
    LowerOfUpper(market);
    LowerOfLower(market);
    FirstForDependsOnLower(Credentials(service), market, Upper(market));
    FirstForDependsOnLower(Credentials(service), market, Lower(market));
  }

  lemma {:induction false} FirstForDependsOnLower(credentials: seq<MarketCredential>, a: string, b: string)
    requires Lower(a) == Lower(b)
    ensures FirstFor(credentials, a) == FirstFor(credentials, b)
    decreases |credentials|
  {
    if credentials != [] {
      FirstForDependsOnLower(credentials[1..], a, b);
    }
  }
}

=== FILE: order_repository.dfy ===
/**
  The order repository's query: every truthy query parameter narrows the
  stored orders by equality or membership, and the result is ordered by
  creation time, newest first.
 */
module OrderRepository {
  import opened Wrappers
  import opened Domain

  /** A query-parameter value: absent/`None`, a string, a number or a list of ids. */
  datatype QValue = QNone | QStr(s: string) | QNum(n: real) | QIds(ids: seq<int>)

  type QueryParams = map<string, QValue>

  /** Python truthiness: `None`, `""`, `0` and `[]` impose no constraint. */
  predicate Truthy(v: QValue) {
    match v
    case QNone => false
    case QStr(s) => s != ""
    case QNum(n) => n != 0.0
    case QIds(ids) => ids != []
  }

  /** Reading a parameter: an absent key reads as `None`. */
  function Param(q: QueryParams, key: string): QValue {
    if key in q then q[key] else QNone
  }

  /** The parameter keys the repository reads. */
  const ReadKeys: set<string> := {
    "external_id", "portfolio_id", "side", "type", "status", "price",
    "amount_target_symbol", "amount_trading_symbol", "position", "symbol", "trading_symbol"
  }

  /** The rows the query runs against. */
  datatype Store = Store(portfolios: seq<Portfolio>, positions: seq<Position>, orders: seq<Order>)

  /** A nullable string column as the value it compares equal to. */
  function StrColumn(c: Option<string>): QValue {
    match c
    case Some(s) => QStr(s)
    case None => QNone
  }

  /** A nullable numeric column as the value it compares equal to. */
  function NumColumn(c: Option<real>): QValue {
    match c
    case Some(n) => QNum(n)
    case None => QNone
  }

  /** First portfolio whose identifier equals the parameter (`filter_by(identifier=…).first()`). */
  function PortfolioWithIdentifier(portfolios: seq<Portfolio>, v: QValue): (r: Option<Portfolio>)
    ensures r.Some? ==> r.value in portfolios && QStr(r.value.identifier) == v
    ensures r.None? <==> forall p :: p in portfolios ==> QStr(p.identifier) != v
  {
    if portfolios == [] then None
    else if QStr(portfolios[0].identifier) == v then Some(portfolios[0])
    else PortfolioWithIdentifier(portfolios[1..], v)
  }

  /** Ids of the positions held in portfolio `p`. */
  function PositionIdsOf(positions: seq<Position>, p: Portfolio): (ids: seq<int>)
    ensures forall id :: id in ids <==> exists x :: x in positions && x.portfolioId == p.id && x.id == id
  {
    if positions == [] then []
    else if positions[0].portfolioId == p.id then [positions[0].id] + PositionIdsOf(positions[1..], p)
    else PositionIdsOf(positions[1..], p)
  }

  /** A truthy `portfolio_id` names no stored portfolio. */
  predicate PortfolioMissing(st: Store, q: QueryParams) {
    Truthy(Param(q, "portfolio_id")) && PortfolioWithIdentifier(st.portfolios, Param(q, "portfolio_id")).None?
  }

  /** An equality filter: holds when the parameter is falsy or equals the column. */
  predicate EqualWhenGiven(q: QueryParams, key: string, column: QValue) {
    Truthy(Param(q, key)) ==> Param(q, key) == column
  }

  /** The conjunction of all filters the parameters impose on order `o`. */
  predicate Admits(st: Store, q: QueryParams, o: Order) {
    && (Truthy(Param(q, "portfolio_id")) ==>
          match PortfolioWithIdentifier(st.portfolios, Param(q, "portfolio_id"))
          case Some(p) => o.positionId in PositionIdsOf(st.positions, p)
          case None => false)
    && EqualWhenGiven(q, "external_id", StrColumn(o.externalId))
    && EqualWhenGiven(q, "side", QStr(SideValue(o.side)))
    && EqualWhenGiven(q, "type", QStr(TypeValue(o.orderType)))
    && EqualWhenGiven(q, "status", QStr(StatusValue(o.status)))
    && EqualWhenGiven(q, "price", NumColumn(o.price))
    && EqualWhenGiven(q, "amount_target_symbol", NumColumn(o.amountTargetSymbol))
    && EqualWhenGiven(q, "amount_trading_symbol", NumColumn(o.amountTradingSymbol))
    && (Truthy(Param(q, "position")) ==> Param(q, "position").QIds? && o.positionId in Param(q, "position").ids)
    && EqualWhenGiven(q, "symbol", QStr(o.targetSymbol))
    && EqualWhenGiven(q, "trading_symbol", QStr(o.tradingSymbol))
  }

  /** The stored orders the filters admit, in stored order. */
  function Admitted(st: Store, q: QueryParams, orders: seq<Order>): (r: seq<Order>)
    ensures forall o :: o in r <==> o in orders && Admits(st, q, o)
    ensures multiset(r) <= multiset(orders)
  {
    if orders == [] then []
    else
      assert orders == [orders[0]] + orders[1..];
      if Admits(st, q, orders[0]) then [orders[0]] + Admitted(st, q, orders[1..])
      else Admitted(st, q, orders[1..])
  }

  /** Orders whose id is the sentinel `-1` that an unknown portfolio filters on. */
  function WithSentinelId(orders: seq<Order>): (r: seq<Order>)
    ensures forall o :: o in r <==> o in orders && o.id == -1
  {
    if orders == [] then []
    else if orders[0].id == -1 then [orders[0]] + WithSentinelId(orders[1..])
    else WithSentinelId(orders[1..])
  }

  /** Newest first: creation times never increase along the sequence. */
  predicate NewestFirst(s: seq<Order>) {
    forall i, j :: 0 <= i < j < |s| ==> s[i].createdAt >= s[j].createdAt
  }

  /** Prepending an order no older than every element keeps a sequence newest-first. */
  lemma PrependNewest(a: Order, s: seq<Order>)
    requires NewestFirst(s)
    requires forall x :: x in s ==> x.createdAt <= a.createdAt
    ensures NewestFirst([a] + s)
  {
    var r := [a] + s;
    forall i, j | 0 <= i < j < |r|
      ensures r[i].createdAt >= r[j].createdAt
    {
      if i == 0 {
        assert r[j] in s;
      } else {
        assert r[i] == s[i - 1] && r[j] == s[j - 1];
      }
    }
  }

  /** Places `o` in a newest-first sequence. */
  function Insert(o: Order, s: seq<Order>): (r: seq<Order>)
    requires NewestFirst(s)
    ensures NewestFirst(r)
    ensures multiset(r) == multiset(s) + multiset{o}
  {
    if s == [] then [o]
    else if o.createdAt >= s[0].createdAt then
      PrependNewest(o, s);
      [o] + s
    else
      TailNewest(s);
      var rest := Insert(o, s[1..]);
      OlderRest(s, o, rest);
      PrependNewest(s[0], rest);
      assert s == [s[0]] + s[1..];
      [s[0]] + rest
  }

  /** Dropping the newest order keeps a sequence newest-first. */
  lemma TailNewest(s: seq<Order>)
    requires s != [] && NewestFirst(s)
    ensures NewestFirst(s[1..])
  {
    forall i, j | 0 <= i < j < |s| - 1
      ensures s[1..][i].createdAt >= s[1..][j].createdAt
    {
      assert s[1..][i] == s[i + 1] && s[1..][j] == s[j + 1];
    }
  }

  /** The tail of a newest-first sequence plus an older order holds nothing newer than the head. */
  lemma OlderRest(s: seq<Order>, o: Order, rest: seq<Order>)
    requires s != [] && NewestFirst(s)
    requires o.createdAt < s[0].createdAt
    requires multiset(rest) == multiset(s[1..]) + multiset{o}
    ensures forall x :: x in rest ==> x.createdAt <= s[0].createdAt
  {
    forall x | x in rest
      ensures x.createdAt <= s[0].createdAt
    {
      assert x in multiset(rest);
      if x != o {
        assert x in multiset(s[1..]);
        var k :| 0 <= k < |s[1..]| && s[1..][k] == x;
        assert s[k + 1] == x;
      }
    }
  }

  /** `order_by(created_at.desc())`: a newest-first rearrangement of its input. */
  function SortNewestFirst(s: seq<Order>): (r: seq<Order>)
    ensures NewestFirst(r)
    ensures multiset(r) == multiset(s)
  {
    if s == [] then []
    else
      assert s == [s[0]] + s[1..];
      Insert(s[0], SortNewestFirst(s[1..]))
  }

  /** `SQLOrderRepository._apply_query_params` followed by the query's evaluation. */
  function Query(st: Store, q: QueryParams): (r: seq<Order>)
    ensures multiset(r) <= multiset(st.orders)
    ensures PortfolioMissing(st, q) ==> forall o :: o in r <==> o in st.orders && o.id == -1
    ensures !PortfolioMissing(st, q) ==> multiset(r) == multiset(Admitted(st, q, st.orders))
    ensures !PortfolioMissing(st, q) ==> NewestFirst(r)
  {
    if PortfolioMissing(st, q) then
      SentinelSubset(st.orders);
      WithSentinelId(st.orders)
    else
      SortNewestFirst(Admitted(st, q, st.orders))
  }

  lemma {:induction false} SentinelSubset(orders: seq<Order>)
    ensures multiset(WithSentinelId(orders)) <= multiset(orders)
  {
    if orders != [] {
      SentinelSubset(orders[1..]);
      assert orders == [orders[0]] + orders[1..];
    }
  }

  /** Outside the sentinel case, an order is returned exactly when it is stored and admitted by every filter. */
  lemma QueryMembership(st: Store, q: QueryParams, o: Order)
    requires !PortfolioMissing(st, q)
    ensures o in Query(st, q) <==> o in st.orders && Admits(st, q, o)
  {
    assert o in Query(st, q) <==> o in multiset(Query(st, q));
    assert o in Admitted(st, q, st.orders) <==> o in multiset(Admitted(st, q, st.orders));
  }

  /** Filters that agree on every order select the same orders. */
  lemma {:induction false} AdmittedAgree(st: Store, q: QueryParams, q': QueryParams, orders: seq<Order>)
    requires forall o :: Admits(st, q, o) == Admits(st, q', o)
    ensures Admitted(st, q, orders) == Admitted(st, q', orders)
  {
    if orders != [] {
      AdmittedAgree(st, q, q', orders[1..]);
    }
  }

  /** A stronger filter selects a sub-multiset. */
  lemma {:induction false} AdmittedMonotone(st: Store, q: QueryParams, q': QueryParams, orders: seq<Order>)
    requires forall o :: Admits(st, q', o) ==> Admits(st, q, o)
    ensures multiset(Admitted(st, q', orders)) <= multiset(Admitted(st, q, orders))
  {
    if orders != [] {
      AdmittedMonotone(st, q, q', orders[1..]);
    }
  }

  /** Parameters that are all absent or falsy keep every stored order. */
  lemma FalsyParamsKeepAll(st: Store, q: QueryParams)
    requires forall k :: k in q ==> !Truthy(q[k])
    ensures multiset(Query(st, q)) == multiset(st.orders)
    ensures NewestFirst(Query(st, q))
  {
    assert !Truthy(Param(q, "portfolio_id"));
    forall o | o in st.orders
      ensures Admits(st, q, o)
    {
      FalsyParamsAdmit(st, q, o);
    }
    AdmitsEvery(st, q, st.orders);
  }

  /** With every parameter falsy, no filter applies. */
  lemma FalsyParamsAdmit(st: Store, q: QueryParams, o: Order)
    requires forall k :: k in q ==> !Truthy(q[k])
    ensures Admits(st, q, o)
  {
    assert forall k :: !Truthy(Param(q, k));
  }

  /** Filters that admit every order keep the sequence as it is. */
  lemma {:induction false} AdmitsEvery(st: Store, q: QueryParams, orders: seq<Order>)
    requires forall o :: o in orders ==> Admits(st, q, o)
    ensures Admitted(st, q, orders) == orders
  {
    if orders != [] {
      var head, tail := orders[0], orders[1..];
      assert orders == [head] + tail;
      assert Admits(st, q, head);
      AdmitsEvery(st, q, tail);
      assert Admitted(st, q, orders) == [head] + Admitted(st, q, tail);
    }
  }

  /**
    A `portfolio_id` naming no stored portfolio yields nothing, given that no
    stored order carries the sentinel id `-1` (ids are assigned from 1).
   */
  lemma UnknownPortfolioEmpty(st: Store, q: QueryParams)
    requires forall o :: o in st.orders ==> o.id != -1
    requires Truthy(Param(q, "portfolio_id"))
    requires forall p :: p in st.portfolios ==> QStr(p.identifier) != Param(q, "portfolio_id")
    ensures Query(st, q) == []
  {
    NoSentinelRows(st.orders);
  }

  lemma {:induction false} NoSentinelRows(orders: seq<Order>)
    requires forall o :: o in orders ==> o.id != -1
    ensures WithSentinelId(orders) == []
  {
    if orders != [] {
      assert orders[0] in orders;
      NoSentinelRows(orders[1..]);
    }
  }

  /** A `portfolio_id` naming a stored portfolio keeps only orders on that portfolio's positions. */
  lemma KnownPortfolioScopes(st: Store, q: QueryParams, p: Portfolio, o: Order)
    requires Truthy(Param(q, "portfolio_id"))
    requires PortfolioWithIdentifier(st.portfolios, Param(q, "portfolio_id")) == Some(p)
    requires o in Query(st, q)
    ensures exists x :: x in st.positions && x.portfolioId == p.id && x.id == o.positionId
  {
    QueryMembership(st, q, o);
  }

  /**
    Adding a parameter that was absent or falsy never enlarges the result,
    given no stored order carries the sentinel id `-1`.
   */
  lemma AddingParameterNarrows(st: Store, q: QueryParams, key: string, v: QValue)
    requires forall o :: o in st.orders ==> o.id != -1
    requires !Truthy(Param(q, key))
    ensures multiset(Query(st, q[key := v])) <= multiset(Query(st, q))
  {
    var q' := q[key := v];
    if PortfolioMissing(st, q') {
      UnknownPortfolioEmpty(st, q');
    } else {
      assert Param(q', "portfolio_id") == Param(q, "portfolio_id") || !Truthy(Param(q, "portfolio_id"));
      forall o | Admits(st, q', o)
        ensures Admits(st, q, o)
      {
        AddedFilterImplies(st, q, key, v, o);
      }
      AdmittedMonotone(st, q, q', st.orders);
    }
  }

  /** Each filter of the extended parameters implies the same filter of the original ones. */
  lemma AddedFilterImplies(st: Store, q: QueryParams, key: string, v: QValue, o: Order)
    requires !Truthy(Param(q, key))
    requires Admits(st, q[key := v], o)
    ensures Admits(st, q, o)
  {
    var q' := q[key := v];
    assert forall k :: k != key ==> Param(q', k) == Param(q, k);
  }

  /** Keys the repository does not read (`target_symbol`, `reference_id`, …) change nothing. */
  lemma UnreadKeyIgnored(st: Store, q: QueryParams, key: string, v: QValue)
    requires key !in ReadKeys
    ensures Query(st, q[key := v]) == Query(st, q)
  {
    var q' := q[key := v];
    forall o
      ensures Admits(st, q, o) == Admits(st, q', o)
    {
      UnreadKeySameFilter(st, q, key, v, o);
    }
    AdmittedAgree(st, q, q', st.orders);
    assert Param(q', "portfolio_id") == Param(q, "portfolio_id");
  }

  /** Each filter reads the same parameter before and after an unread key is set. */
  lemma UnreadKeySameFilter(st: Store, q: QueryParams, key: string, v: QValue, o: Order)
    requires key !in ReadKeys
    ensures Admits(st, q, o) == Admits(st, q[key := v], o)
  {
    assert forall k :: k in ReadKeys ==> Param(q[key := v], k) == Param(q, k);
  }
}

=== FILE: services.dfy ===
/**
  The in-memory state the algorithm facade reads through its services, and
  the lookups those services perform: portfolio configurations, portfolios,
  positions and orders, plus the market's bid price per trading pair.
 */
module Services {
  import opened Wrappers
  import opened Domain
  import OrderRepository

  datatype AppState = AppState(
    configurations: seq<PortfolioConfiguration>,
    portfolios: seq<Portfolio>,
    positions: seq<Position>,
    orders: seq<Order>,
    /** The `bid` of the ticker for a pair such as `"BTC/USDT"`. */
    bid: string -> real)

  /** Exceptions the facade raises or lets through. */
  datatype Error =
    | ApiException(message: string)
      /** A service `find` that matched nothing. */
    | NotFound(entity: string)
    | IndexError
    | ZeroDivisionError
    | TypeError

  const NoPortfolioMessage := "No portfolio found."
  const MultiplePortfoliosMessage := "Multiple portfolios found. Please specify a portfolio identifier."

  function StoreOf(s: AppState): OrderRepository.Store {
    OrderRepository.Store(s.portfolios, s.positions, s.orders)
  }

  /** An optional filter value: `None` imposes nothing, a value must be equal. */
  predicate Given(filter: Option<string>, field: string) {
    filter.None? || filter.value == field
  }

  predicate PortfolioInScope(p: Portfolio, market: Option<string>, identifier: Option<string>) {
    Given(market, p.market) && Given(identifier, p.identifier)
  }

  predicate ConfigurationInScope(c: PortfolioConfiguration, market: Option<string>, identifier: Option<string>) {
    Given(market, c.market) && Given(identifier, c.identifier)
  }

  /** `i` is the first index of `ps` in scope. */
  predicate IsFirstInScope(ps: seq<Portfolio>, market: Option<string>, identifier: Option<string>, i: int) {
    0 <= i < |ps| && PortfolioInScope(ps[i], market, identifier)
    && forall j :: 0 <= j < i ==> !PortfolioInScope(ps[j], market, identifier)
  }

  /** `portfolio_service.get_all(query)`: the portfolios in scope, in stored order. */
  function ScopedPortfolios(ps: seq<Portfolio>, market: Option<string>, identifier: Option<string>): (r: seq<Portfolio>)
    ensures forall p :: p in r <==> p in ps && PortfolioInScope(p, market, identifier)
  {
    if ps == [] then []
    else if PortfolioInScope(ps[0], market, identifier) then [ps[0]] + ScopedPortfolios(ps[1..], market, identifier)
    else ScopedPortfolios(ps[1..], market, identifier)
  }

  /** The head of the scoped portfolios is the first stored portfolio in scope. */
  lemma {:induction false} ScopedHeadIsFirst(ps: seq<Portfolio>, market: Option<string>, identifier: Option<string>)
    requires ScopedPortfolios(ps, market, identifier) != []
    ensures exists i :: IsFirstInScope(ps, market, identifier, i) && ScopedPortfolios(ps, market, identifier)[0] == ps[i]
  {
    if PortfolioInScope(ps[0], market, identifier) {
      assert IsFirstInScope(ps, market, identifier, 0);
    } else {
      ScopedHeadIsFirst(ps[1..], market, identifier);
      var i :| IsFirstInScope(ps[1..], market, identifier, i)
               && ScopedPortfolios(ps[1..], market, identifier)[0] == ps[1..][i];
      assert IsFirstInScope(ps, market, identifier, i + 1) by {
        forall j | 0 <= j < i + 1
          ensures !PortfolioInScope(ps[j], market, identifier)
        {
          if j > 0 {
            assert ps[j] == ps[1..][j - 1];
          }
        }
      }
    }
  }

  /** Every first in-scope index holds the head of the scoped portfolios: that index is unique. */
  lemma ScopedHeadAtFirst(ps: seq<Portfolio>, market: Option<string>, identifier: Option<string>)
    requires ScopedPortfolios(ps, market, identifier) != []
    ensures forall i :: IsFirstInScope(ps, market, identifier, i) ==> ScopedPortfolios(ps, market, identifier)[0] == ps[i]
  {
    ScopedHeadIsFirst(ps, market, identifier);
    var k :| IsFirstInScope(ps, market, identifier, k) && ScopedPortfolios(ps, market, identifier)[0] == ps[k];
    assert forall i :: IsFirstInScope(ps, market, identifier, i) ==> i == k;
  }

  /** `portfolio_service.find(query)`: the first portfolio in scope, or a failed lookup. */
  function FindPortfolio(ps: seq<Portfolio>, market: Option<string>, identifier: Option<string>): (r: Result<Portfolio, Error>)
    ensures r.Failure? <==> forall p :: p in ps ==> !PortfolioInScope(p, market, identifier)
    ensures r.Failure? ==> r.error == NotFound("portfolio")
    ensures r.Success? ==> exists i :: IsFirstInScope(ps, market, identifier, i) && r.value == ps[i]
  {
    var scoped := ScopedPortfolios(ps, market, identifier);
    if scoped == [] then Failure(NotFound("portfolio"))
    else
      ScopedHeadIsFirst(ps, market, identifier);
      Success(scoped[0])
  }

  /** `portfolio_configuration_service.find(query)`: the first configuration in scope. */
  function FindConfiguration(cs: seq<PortfolioConfiguration>, market: Option<string>, identifier: Option<string>)
    : (r: Result<PortfolioConfiguration, Error>)
    ensures r.Failure? <==> forall c :: c in cs ==> !ConfigurationInScope(c, market, identifier)
    ensures r.Failure? ==> r.error == NotFound("portfolio configuration")
    ensures r.Success? ==> r.value in cs && ConfigurationInScope(r.value, market, identifier)
    ensures r.Success? ==> exists i :: 0 <= i < |cs| && cs[i] == r.value
                                       && forall j :: 0 <= j < i ==> !ConfigurationInScope(cs[j], market, identifier)
  {
    if cs == [] then Failure(NotFound("portfolio configuration"))
    else if ConfigurationInScope(cs[0], market, identifier) then Success(cs[0])
    else FindConfiguration(cs[1..], market, identifier)
  }

  /** `position_service.get_all({"portfolio": …})`: the positions held in portfolio `p`. */
  function PositionsOf(positions: seq<Position>, p: Portfolio): (r: seq<Position>)
    ensures forall x :: x in r <==> x in positions && x.portfolioId == p.id
    ensures |r| <= |positions|
  {
    if positions == [] then []
    else if positions[0].portfolioId == p.id then [positions[0]] + PositionsOf(positions[1..], p)
    else PositionsOf(positions[1..], p)
  }

  /** Portfolio `p` has a position in `symbol`. */
  predicate Holds(positions: seq<Position>, p: Portfolio, symbol: string) {
    exists x :: x in positions && x.portfolioId == p.id && x.symbol == symbol
  }

  /** `position_service.find({"portfolio": …, "symbol": symbol})`: the position of `p` in `symbol`. */
  function FindPosition(positions: seq<Position>, p: Portfolio, symbol: string): (r: Result<Position, Error>)
    ensures r.Failure? <==> forall x :: x in positions && x.portfolioId == p.id ==> x.symbol != symbol
    ensures r.Failure? ==> r.error == NotFound("position")
    ensures r.Success? ==> r.value in positions && r.value.portfolioId == p.id && r.value.symbol == symbol
  {
    if positions == [] then Failure(NotFound("position"))
    else if positions[0].portfolioId == p.id && positions[0].symbol == symbol then Success(positions[0])
    else FindPosition(positions[1..], p, symbol)
  }
}

=== FILE: text.dfy ===
/** Character-level string helpers: case mapping and `str.isupper`, over ASCII letters. */
module Text {

  predicate IsLowerChar(c: char) {
    'a' <= c <= 'z'
  }

  predicate IsUpperChar(c: char) {
    'A' <= c <= 'Z'
  }

  function UpperChar(c: char): char {
    if IsLowerChar(c) then (c as int - 32) as char else c
  }

  function LowerChar(c: char): char {
    if IsUpperChar(c) then (c as int + 32) as char else c
  }

  /** Python's `str.upper()` restricted to ASCII letters. */
  function Upper(s: string): (r: string)
    ensures |r| == |s|
    ensures forall i :: 0 <= i < |s| ==> r[i] == UpperChar(s[i])
  {
    seq(|s|, i requires 0 <= i < |s| => UpperChar(s[i]))
  }

  /** Python's `str.lower()` restricted to ASCII letters. */
  function Lower(s: string): (r: string)
    ensures |r| == |s|
    ensures forall i :: 0 <= i < |s| ==> r[i] == LowerChar(s[i])
  {
    seq(|s|, i requires 0 <= i < |s| => LowerChar(s[i]))
  }

  /** No lower-case letter occurs in `s`. */
  predicate NoLowerCase(s: string) {
    forall i :: 0 <= i < |s| ==> !IsLowerChar(s[i])
  }

  /** Python's `str.isupper()`: at least one cased letter, and no lower-case one. */
  predicate IsUpper(s: string) {
    NoLowerCase(s) && exists i :: 0 <= i < |s| && IsUpperChar(s[i])
  }

  /** Upper-casing yields a string with no lower-case letter, and is idempotent. */
  lemma UpperNormalises(s: string)
    ensures NoLowerCase(Upper(s))
    ensures Upper(Upper(s)) == Upper(s)
  {
  }

  /** A string without lower-case letters is its own upper-case form. */
  lemma UpperFixesNoLowerCase(s: string)
    requires NoLowerCase(s)
    ensures Upper(s) == s
  {
  }

  /** Lower-casing forgets the case the argument was written in. */
  lemma LowerOfUpper(s: string)
    ensures Lower(Upper(s)) == Lower(s)
  {
    forall i | 0 <= i < |s|
      ensures Lower(Upper(s))[i] == Lower(s)[i]
    {
      var c := s[i];
      if IsLowerChar(c) {
        assert UpperChar(c) as int == c as int - 32;
      }
    }
  }

  /** Upper-casing forgets the case the argument was written in. */
  lemma UpperOfLower(s: string)
    ensures Upper(Lower(s)) == Upper(s)
  {
    forall i | 0 <= i < |s|
      ensures Upper(Lower(s))[i] == Upper(s)[i]
    {
      var c := s[i];
      if IsUpperChar(c) {
        assert LowerChar(c) as int == c as int + 32;
      }
    }
  }

  /** Lower-casing is idempotent. */
  lemma LowerOfLower(s: string)
    ensures Lower(Lower(s)) == Lower(s)
  {
  }
}

=== FILE: valuation.dfy ===
/**
  Allocated value of the facade: for every position whose symbol is not its
  portfolio's trading symbol, the position's amount times the bid of
  `<SYMBOL>/<TRADING>`, summed over the portfolios in scope.
 */
module Valuation {
  import opened Wrappers
  import opened Text
  import opened Domain
  import opened Services

  /** The ticker symbol of a position in a portfolio: `"<SYMBOL>/<TRADING>"`, upper-cased. */
  function PairOf(symbol: string, tradingSymbol: string): (r: string)
    ensures |r| == |symbol| + 1 + |tradingSymbol|
    ensures NoLowerCase(r)
    ensures r[|symbol|] == '/'
  {
    UpperNormalises(symbol);
    UpperNormalises(tradingSymbol);
    Upper(symbol) + "/" + Upper(tradingSymbol)
  }

  /**
    A pair names its two symbols up to case: when neither base symbol
    contains `/`, equal pairs come from the same upper-cased symbols.
   */
  lemma PairOfDetermines(a: string, b: string, c: string, d: string)
    requires '/' !in a && '/' !in c
    requires PairOf(a, b) == PairOf(c, d)
    ensures Upper(a) == Upper(c) && Upper(b) == Upper(d)
  {
    var r := PairOf(a, b);
    assert |a| == |c|;
    assert Upper(a) == r[..|a|] == Upper(c);
    assert Upper(b) == r[|a| + 1..] == Upper(d);
  }

  /** The pair does not depend on how either symbol is capitalised. */
  lemma PairOfCaseInsensitive(a: string, b: string)
    ensures PairOf(a, b) == PairOf(Lower(a), Upper(b))
  {
    UpperOfLower(a);
    UpperNormalises(b);
  }

  /** Market value of one position in its portfolio's trading symbol. */
  function PositionValue(x: Position, tradingSymbol: string, bid: string -> real): real {
    x.amount * bid(PairOf(x.symbol, tradingSymbol))
  }

  /** The loop over a portfolio's positions: trading-symbol positions are skipped. */
  function HeldValue(ps: seq<Position>, tradingSymbol: string, bid: string -> real): real
  {
    if ps == [] then 0.0
    else
      var last := ps[|ps| - 1];
      HeldValue(ps[..|ps| - 1], tradingSymbol, bid)
        + (if last.symbol == tradingSymbol then 0.0 else PositionValue(last, tradingSymbol, bid))
  }

  /** The positions that are holdings rather than cash: symbol differs from the trading symbol. */
  function Holdings(ps: seq<Position>, tradingSymbol: string): (r: seq<Position>)
    ensures forall x :: x in r <==> x in ps && x.symbol != tradingSymbol
  {
    if ps == [] then []
    else
      var last := ps[|ps| - 1];
      assert ps == ps[..|ps| - 1] + [last];
      Holdings(ps[..|ps| - 1], tradingSymbol) + (if last.symbol == tradingSymbol then [] else [last])
  }

  /** Reference valuation: the plain sum of `amount × bid` over a sequence of positions. */
  function TotalValue(ps: seq<Position>, tradingSymbol: string, bid: string -> real): real
  {
    if ps == [] then 0.0
    else TotalValue(ps[..|ps| - 1], tradingSymbol, bid) + PositionValue(ps[|ps| - 1], tradingSymbol, bid)
  }

  lemma {:induction false} TotalValueAppend(a: seq<Position>, b: seq<Position>, tradingSymbol: string, bid: string -> real)
    ensures TotalValue(a + b, tradingSymbol, bid) == TotalValue(a, tradingSymbol, bid) + TotalValue(b, tradingSymbol, bid)
    decreases |b|
  {
    if b != [] {
      var b' := b[..|b| - 1];
      assert (a + b)[..|a + b| - 1] == a + b';
      TotalValueAppend(a, b', tradingSymbol, bid);
    } else {
      assert a + b == a;
    }
  }

  /** Skipping trading-symbol positions is the same as summing over the holdings only. */
  lemma {:induction false} HeldValueIsHoldingsTotal(ps: seq<Position>, tradingSymbol: string, bid: string -> real)
    ensures HeldValue(ps, tradingSymbol, bid) == TotalValue(Holdings(ps, tradingSymbol), tradingSymbol, bid)
  {
    if ps != [] {
      var init := ps[..|ps| - 1];
      var last := ps[|ps| - 1];
      HeldValueIsHoldingsTotal(init, tradingSymbol, bid);
      TotalValueAppend(Holdings(init, tradingSymbol), if last.symbol == tradingSymbol then [] else [last], tradingSymbol, bid);
      assert TotalValue([last], tradingSymbol, bid) == PositionValue(last, tradingSymbol, bid) by {
        assert [last][..0] == [];
      }
    }
  }

  /** A portfolio holding nothing but its trading symbol has no allocated value. */
  lemma {:induction false} NoHoldingsNoValue(ps: seq<Position>, tradingSymbol: string, bid: string -> real)
    requires forall x :: x in ps ==> x.symbol == tradingSymbol
    ensures HeldValue(ps, tradingSymbol, bid) == 0.0
  {
    HeldValueIsHoldingsTotal(ps, tradingSymbol, bid);
    assert Holdings(ps, tradingSymbol) == [];
  }

  /** Allocated value of one portfolio. */
  function PortfolioValue(p: Portfolio, positions: seq<Position>, bid: string -> real): real {
    HeldValue(PositionsOf(positions, p), p.tradingSymbol, bid)
  }

  /** Allocated value summed over a sequence of portfolios. */
  function AllocatedOver(portfolios: seq<Portfolio>, positions: seq<Position>, bid: string -> real): real {
    if portfolios == [] then 0.0
    else
      AllocatedOver(portfolios[..|portfolios| - 1], positions, bid)
        + PortfolioValue(portfolios[|portfolios| - 1], positions, bid)
  }

  /**
    The nested loop of `get_allocated`, over the portfolios found and their
    positions, accumulating into one running total.
   */
  method ComputeAllocated(portfolios: seq<Portfolio>, positions: seq<Position>, bid: string -> real)
    returns (total: real)
    ensures total == AllocatedOver(portfolios, positions, bid)
  {
    total := 0.0;
    var i := 0;
    while i < |portfolios|
      invariant 0 <= i <= |portfolios|
      invariant total == AllocatedOver(portfolios[..i], positions, bid)
    {
      var portfolio := portfolios[i];
      var held := PositionsOf(positions, portfolio);
      var j := 0;
      while j < |held|
        invariant 0 <= j <= |held|
        invariant total == AllocatedOver(portfolios[..i], positions, bid)
                               + HeldValue(held[..j], portfolio.tradingSymbol, bid)
      {
        var position := held[j];
        assert held[..j + 1][..j] == held[..j];
        if portfolio.tradingSymbol != position.symbol {
          total := total + position.amount * bid(PairOf(position.symbol, portfolio.tradingSymbol));
        }
        j := j + 1;
      }
      assert held[..j] == held;
      assert portfolios[..i + 1][..i] == portfolios[..i];
      i := i + 1;
    }
    assert portfolios[..i] == portfolios;
  }

  /** Several configurations and neither market nor identifier: `get_allocated` cannot choose. */
  predicate Ambiguous(s: AppState, market: Option<string>, identifier: Option<string>) {
    |s.configurations| > 1 && market.None? && identifier.None?
  }

  /** Some configuration matches every given argument. */
  predicate ConfigurationExists(s: AppState, market: Option<string>, identifier: Option<string>) {
    exists c :: c in s.configurations && ConfigurationInScope(c, market, identifier)
  }

  /** A portfolio is stored under the configuration's identifier. */
  predicate Stored(s: AppState, c: PortfolioConfiguration) {
    exists p :: p in s.portfolios && p.identifier == c.identifier
  }

  /**
    The configurations `get_allocated` values: an ambiguity error when several
    are configured and neither market nor identifier is given; every
    configuration when both are given; otherwise the one the lookup finds.
   */
  function ConfigurationsInScope(s: AppState, market: Option<string>, identifier: Option<string>)
    : (r: Result<seq<PortfolioConfiguration>, Error>)
    ensures r == Failure(ApiException(MultiplePortfoliosMessage)) <==> Ambiguous(s, market, identifier)
    ensures market.Some? && identifier.Some? ==> r == Success(s.configurations)
    ensures (market.None? || identifier.None?) && !Ambiguous(s, market, identifier) ==>
              (r.Success? <==> ConfigurationExists(s, market, identifier))
    ensures (market.None? || identifier.None?) && r.Success? ==>
              |r.value| == 1 && r.value[0] in s.configurations && ConfigurationInScope(r.value[0], market, identifier)
    ensures r.Failure? && !Ambiguous(s, market, identifier) ==> r.error == NotFound("portfolio configuration")
  {
    if |s.configurations| > 1 && identifier.None? && market.None? then
      Failure(ApiException(MultiplePortfoliosMessage))
    else if market.Some? && identifier.Some? then
      Success(s.configurations)
    else
      var c :- FindConfiguration(s.configurations, market, identifier);
      Success([c])
  }

  /** The portfolio stored under each configuration's identifier, failing on the first one missing. */
  function PortfoliosFor(s: AppState, cs: seq<PortfolioConfiguration>): (r: Result<seq<Portfolio>, Error>)
    ensures r.Success? <==> forall c :: c in cs ==> Stored(s, c)
    ensures r.Success? ==> |r.value| == |cs|
    ensures r.Success? ==> forall i :: 0 <= i < |cs| ==> r.value[i] in s.portfolios && r.value[i].identifier == cs[i].identifier
    ensures r.Failure? ==> r.error == NotFound("portfolio")
  {
    if cs == [] then Success([])
    else
      assert forall c :: c in cs <==> c == cs[0] || c in cs[1..];
      assert Stored(s, cs[0]) <==> FindPortfolio(s.portfolios, None, Some(cs[0].identifier)).Success?;
      var p :- FindPortfolio(s.portfolios, None, Some(cs[0].identifier));
      var rest :- PortfoliosFor(s, cs[1..]);
      Success([p] + rest)
  }

  /** `Algorithm.get_allocated(market, identifier)`, as written. */
  function GetAllocated(s: AppState, market: Option<string> := None, identifier: Option<string> := None)
    : (r: Result<real, Error>)
    ensures r == Failure(ApiException(MultiplePortfoliosMessage)) <==> Ambiguous(s, market, identifier)
    ensures r.Success? <==> ConfigurationsInScope(s, market, identifier).Success?
                            && PortfoliosFor(s, ConfigurationsInScope(s, market, identifier).value).Success?
    ensures r.Failure? ==> r.error in {ApiException(MultiplePortfoliosMessage), NotFound("portfolio"),
                                       NotFound("portfolio configuration")}
    ensures r.Success? ==> r.value == AllocatedOver(PortfoliosFor(s, ConfigurationsInScope(s, market, identifier).value).value,
                                                    s.positions, s.bid)
  {
    var cs :- ConfigurationsInScope(s, market, identifier);
    var portfolios :- PortfoliosFor(s, cs);
    Success(AllocatedOver(portfolios, s.positions, s.bid))
  }

  /**
    As written, once both market and identifier are given the arguments no
    longer matter: every choice values the same configurations.
   */
  lemma AsWrittenBothGivenIgnoresArguments(s: AppState, m1: string, i1: string, m2: string, i2: string)
    ensures GetAllocated(s, Some(m1), Some(i1)) == GetAllocated(s, Some(m2), Some(i2))
    ensures GetAllocated(s, Some(m1), Some(i1)).Success? <==> forall c :: c in s.configurations ==> Stored(s, c)
  {
  }

  /** The holdings value of each portfolio, summed: a reference for the valuation loop. */
  function HoldingsSum(ps: seq<Portfolio>, positions: seq<Position>, bid: string -> real): real {
    if ps == [] then 0.0
    else
      var p := ps[0];
      TotalValue(Holdings(PositionsOf(positions, p), p.tradingSymbol), p.tradingSymbol, bid)
        + HoldingsSum(ps[1..], positions, bid)
  }

  /** Summing holdings over the portfolios is the valuation over them. */
  lemma {:induction false} AllocatedOverIsHoldingsSum(ps: seq<Portfolio>, positions: seq<Position>, bid: string -> real)
    ensures AllocatedOver(ps, positions, bid) == HoldingsSum(ps, positions, bid)
  {
    if ps != [] {
      var init, last := ps[..|ps| - 1], ps[|ps| - 1];
      var held := PositionsOf(positions, last);
      AllocatedOverIsHoldingsSum(init, positions, bid);
      HeldValueIsHoldingsTotal(held, last.tradingSymbol, bid);
      assert AllocatedOver(ps, positions, bid) == AllocatedOver(init, positions, bid) + HeldValue(held, last.tradingSymbol, bid);
      assert HoldingsSum(ps, positions, bid)
             == HoldingsSum(init, positions, bid) + TotalValue(Holdings(held, last.tradingSymbol), last.tradingSymbol, bid) by {
        assert init + [last] == ps;
        HoldingsSumAppend(init, last, positions, bid);
      }
    }
  }

  /** Appending one portfolio adds its holdings value to the sum. */
  lemma {:induction false} HoldingsSumAppend(ps: seq<Portfolio>, p: Portfolio, positions: seq<Position>, bid: string -> real)
    ensures HoldingsSum(ps + [p], positions, bid)
            == HoldingsSum(ps, positions, bid)
               + TotalValue(Holdings(PositionsOf(positions, p), p.tradingSymbol), p.tradingSymbol, bid)
  {
    if ps != [] {
      assert (ps + [p])[1..] == ps[1..] + [p];
      HoldingsSumAppend(ps[1..], p, positions, bid);
    }
  }

  /**
    As written, with market and identifier both given, the valuation sums the
    holdings of one stored portfolio per configuration, over every
    configuration, whatever the arguments name.
   */
  lemma AsWrittenBothGivenSumsAll(s: AppState, market: string, identifier: string)
    requires GetAllocated(s, Some(market), Some(identifier)).Success?
    ensures exists ps: seq<Portfolio> ::
              && |ps| == |s.configurations|
              && (forall k :: 0 <= k < |ps| ==> ps[k] in s.portfolios && ps[k].identifier == s.configurations[k].identifier)
              && GetAllocated(s, Some(market), Some(identifier)).value == HoldingsSum(ps, s.positions, s.bid)
  {
    assert ConfigurationsInScope(s, Some(market), Some(identifier)) == Success(s.configurations);
    var ps := PortfoliosFor(s, s.configurations).value;
    assert GetAllocated(s, Some(market), Some(identifier)).value == AllocatedOver(ps, s.positions, s.bid);
    AllocatedOverIsHoldingsSum(ps, s.positions, s.bid);
    assert |ps| == |s.configurations|;
    assert forall k :: 0 <= k < |ps| ==> ps[k] in s.portfolios && ps[k].identifier == s.configurations[k].identifier;
  }

  /**
    Corrected configuration scope: with market and identifier both given, the
    lookup uses both instead of taking every configuration.
   */
  function ConfigurationsInScopeIntended(s: AppState, market: Option<string>, identifier: Option<string>)
    : (r: Result<seq<PortfolioConfiguration>, Error>)
    ensures r == Failure(ApiException(MultiplePortfoliosMessage)) <==> Ambiguous(s, market, identifier)
    ensures !Ambiguous(s, market, identifier) ==> (r.Success? <==> ConfigurationExists(s, market, identifier))
    ensures r.Success? ==> |r.value| == 1 && r.value[0] in s.configurations
                           && ConfigurationInScope(r.value[0], market, identifier)
    ensures r.Failure? && !Ambiguous(s, market, identifier) ==> r.error == NotFound("portfolio configuration")
  {
    if |s.configurations| > 1 && identifier.None? && market.None? then
      Failure(ApiException(MultiplePortfoliosMessage))
    else
      var c :- FindConfiguration(s.configurations, market, identifier);
      Success([c])
  }

  /** `get_allocated` with the corrected scope; the percentage computation uses this one. */
  function GetAllocatedIntended(s: AppState, market: Option<string> := None, identifier: Option<string> := None)
    : (r: Result<real, Error>)
    ensures r == Failure(ApiException(MultiplePortfoliosMessage)) <==> Ambiguous(s, market, identifier)
    ensures r.Success? <==> ConfigurationsInScopeIntended(s, market, identifier).Success?
                            && PortfoliosFor(s, ConfigurationsInScopeIntended(s, market, identifier).value).Success?
    ensures r.Failure? ==> r.error in {ApiException(MultiplePortfoliosMessage), NotFound("portfolio"),
                                       NotFound("portfolio configuration")}
    ensures r.Success? ==> r.value == AllocatedOver(PortfoliosFor(s, ConfigurationsInScopeIntended(s, market, identifier).value).value,
                                                    s.positions, s.bid)
  {
    var cs :- ConfigurationsInScopeIntended(s, market, identifier);
    var portfolios :- PortfoliosFor(s, cs);
    Success(AllocatedOver(portfolios, s.positions, s.bid))
  }

  /**
    The corrected valuation is the value of exactly one portfolio: the one
    stored under the identifier of a configuration in scope, counting only
    its holdings (positions not in its trading symbol).
   */
  lemma IntendedValuesOnePortfolio(s: AppState, market: Option<string>, identifier: Option<string>)
    requires GetAllocatedIntended(s, market, identifier).Success?
    ensures exists c, p ::
              && c in s.configurations && ConfigurationInScope(c, market, identifier)
              && p in s.portfolios && p.identifier == c.identifier
              && GetAllocatedIntended(s, market, identifier).value
                 == TotalValue(Holdings(PositionsOf(s.positions, p), p.tradingSymbol), p.tradingSymbol, s.bid)
  {
    var cs := ConfigurationsInScopeIntended(s, market, identifier).value;
    var ps := PortfoliosFor(s, cs).value;
    assert GetAllocatedIntended(s, market, identifier).value == AllocatedOver(ps, s.positions, s.bid);
    var c, p := cs[0], ps[0];
    assert c in s.configurations && ConfigurationInScope(c, market, identifier);
    assert p in s.portfolios && p.identifier == c.identifier;
    SingletonAllocated(ps, s.positions, s.bid);
    HeldValueIsHoldingsTotal(PositionsOf(s.positions, p), p.tradingSymbol, s.bid);
  }

  /** The valuation over one portfolio is that portfolio's value. */
  lemma SingletonAllocated(ps: seq<Portfolio>, positions: seq<Position>, bid: string -> real)
    requires |ps| == 1
    ensures AllocatedOver(ps, positions, bid) == PortfolioValue(ps[0], positions, bid)
  {
    assert ps[..0] == [];
  }

  /** The as-written and the corrected valuation agree unless market and identifier are both given. */
  lemma AsWrittenAgreesUnlessBothGiven(s: AppState, market: Option<string>, identifier: Option<string>)
    requires market.None? || identifier.None?
    ensures GetAllocated(s, market, identifier) == GetAllocatedIntended(s, market, identifier)
  {
  }

  /**
    With market and identifier both given, the as-written valuation adds up
    every configured portfolio: two portfolios each holding one coin bid at 10
    give 20 for the BINANCE portfolio `a`, whose own holdings are worth 10.
   */
  lemma AsWrittenIgnoresScope()
    ensures GetAllocated(TwoPortfolios(), Some("BINANCE"), Some("a")) == Success(20.0)
    ensures GetAllocatedIntended(TwoPortfolios(), Some("BINANCE"), Some("a")) == Success(10.0)
  {
    ExampleLookups();
    ExampleTotals();
  }

  /** In the example, both portfolios together are worth 20 and `a` alone 10. */
  lemma ExampleTotals()
    ensures AllocatedOver([TwoPortfolios().portfolios[0], TwoPortfolios().portfolios[1]],
                          TwoPortfolios().positions, TwoPortfolios().bid) == 20.0
    ensures AllocatedOver([TwoPortfolios().portfolios[0]], TwoPortfolios().positions, TwoPortfolios().bid) == 10.0
  {
    var s := TwoPortfolios();
    var a, b := s.portfolios[0], s.portfolios[1];
    ExamplePortfolioValues();
    assert [a, b][..1] == [a] && [a][..0] == [];
  }

  /** In the example, each portfolio is worth 10: one coin bid at 10. */
  lemma ExamplePortfolioValues()
    ensures PortfolioValue(TwoPortfolios().portfolios[0], TwoPortfolios().positions, TwoPortfolios().bid) == 10.0
    ensures PortfolioValue(TwoPortfolios().portfolios[1], TwoPortfolios().positions, TwoPortfolios().bid) == 10.0
  {
    var s := TwoPortfolios();
    var a, b := s.portfolios[0], s.portfolios[1];
    assert PositionsOf(s.positions, a) == [s.positions[0]];
    assert PositionsOf(s.positions, b) == [s.positions[1]];
    assert [s.positions[0]][..0] == [] && [s.positions[1]][..0] == [];
  }

  /** In the example, each configuration finds its own portfolio. */
  lemma ExampleLookups()
    ensures PortfoliosFor(TwoPortfolios(), TwoPortfolios().configurations)
            == Success([TwoPortfolios().portfolios[0], TwoPortfolios().portfolios[1]])
    ensures PortfoliosFor(TwoPortfolios(), [TwoPortfolios().configurations[0]])
            == Success([TwoPortfolios().portfolios[0]])
    ensures ConfigurationsInScopeIntended(TwoPortfolios(), Some("BINANCE"), Some("a"))
            == Success([TwoPortfolios().configurations[0]])
  {
    var s := TwoPortfolios();
    var a, b := s.portfolios[0], s.portfolios[1];
    var ca, cb := s.configurations[0], s.configurations[1];
    assert ScopedPortfolios(s.portfolios, None, Some("b")) == [b];
    assert FindPortfolio(s.portfolios, None, Some("a")) == Success(a);
    assert FindPortfolio(s.portfolios, None, Some("b")) == Success(b);
    assert [cb][1..] == [] && [ca][1..] == [];
    assert PortfoliosFor(s, []) == Success([]);
    assert PortfoliosFor(s, [cb]) == Success([b]);
    assert [a] + [] == [a] && [b] + [] == [b];
    assert PortfoliosFor(s, [ca]) == Success([a]);
    assert s.configurations[1..] == [cb] && [a] + [b] == [a, b];
  }

  /** Two configured portfolios, BINANCE/USDT `a` and BITVAVO/EUR `b`, each holding one coin bid at 10. */
  function TwoPortfolios(): AppState {
    AppState(
      [PortfolioConfiguration("a", "BINANCE", "USDT"), PortfolioConfiguration("b", "BITVAVO", "EUR")],
      [Portfolio(1, "a", "BINANCE", "USDT"), Portfolio(2, "b", "BITVAVO", "EUR")],
      [Position(1, 1, "BTC", 1.0), Position(2, 2, "ETH", 1.0)],
      [],
      pair => 10.0)
  }
}

=== FILE: values.dfy ===
/** The Python values a configuration entry or an `equals` argument can hold. */
module PyValues {

  datatype Value =
    | NoneValue
    | BoolValue(b: bool)
    | IntValue(i: int)
    | StrValue(s: string)
    | ListValue(items: seq<Value>)
    | DictValue(entries: map<string, Value>)
      /** A member of some `Enum` class, carrying its `.value`. */
    | EnumValue(enumClass: string, member: Value)
      /** A function or static method found in a class dictionary, by name. */
    | MethodValue(name: string)

}

=== FILE: wrappers.dfy ===
/** Failure-compatible result types shared by every module of the model. */
module Wrappers {

  /** A value that may be missing; stands for Python's `None`-or-value. */
  datatype Option<+T> = None | Some(value: T) {
    predicate IsFailure() {
      None?
    }

    function PropagateFailure<U>(): Option<U>
      requires None?
    {
      None
    }

    function Extract(): T
      requires Some?
    {
      value
    }
  }

  /** Either a computed value or the exception the source would raise. */
  datatype Result<+R, +E> = Success(value: R) | Failure(error: E) {
    predicate IsFailure() {
      Failure?
    }

    function PropagateFailure<U>(): Result<U, E>
      requires Failure?
    {
      Failure(error)
    }

    function Extract(): R
      requires Success?
    {
      value
    }
  }
}
